=== FILE: README.md ===
# Dungeon level generation, player and weapon state — a Dafny model

This project models the procedural level generator of a small browser
first-person shooter, together with the player's health and movement keys
and the weapon's ammunition gate.

The generator works in the following stages:

- It seeds a Park–Miller random generator (`SeededRandom`).
- It splits the map rectangle by binary space partitioning. Each `Leaf.split` cuts a leaf across one axis, and the split loop repeats until a pass splits nothing.
- It places one room in every leaf (`createRooms`), centred and sized from 70% to 100% of the leaf less a padding of 2. Large rooms may get pillars.
- It joins the two children of every inner node with a corridor between their `getCenter` points (`generateCorridors`).
- It carves rooms and corridors out of a solid grid (`setEmpty`) and raises pillar cells back to wall.
- It reports every wall cell that has an empty 4-neighbour (`getGrid` treats cells outside the grid as wall).

The model has one module per concern:

| module | file | models |
|---|---|---|
| `Rng` | rng.dfy | `SeededRandom`: JavaScript `%`, the seed normalisation, `next`, `range`. The state is an integer and every draw is an explicit step (`Advance`). |
| `Bsp` | bsp.dfy | rectangles, `Leaf.split`, the split loop over the growing `leafs` array (an index-linked sequence of parts), and the tree built from it. |
| `Rooms` | rooms.dfy | `createRooms` (the generator state threaded left to right) and `getCenter`. |
| `Corridors` | corridors.dfy | `generateCorridors`. |
| `Carving` | carving.dfy | the grid, `setEmpty`, the pillar loops, `getGrid` and wall extraction. A loop-free reference (`Painted`) defines the final grid. |
| `Wrappers` | wrappers.dfy | `Option`, shared by the split tree's rooms and the key handlers. |
| `Generator` | generator.dfy | the constructor and `generate` end to end. |
| `Player` | player.dfy | `takeDamage`, `heal`, the key handlers, the integer direction components. |
| `Weapon` | weapon.dfy | `shoot`'s guard and state change, the cooldown as an event, `addAmmo`. |

Coordinates: rectangles, rooms and grid cells use integer grid coordinates, with the origin at the map's top-left corner. The source stores rooms shifted by half the map (`x - width / 2`). The model applies that shift where the source computes in centred map coordinates:

- `getCenter`, the corridors and the areas passed to `setEmpty` use exact `real`s.
- `setEmpty` maps a coordinate back to the grid with `Math.floor(coord + size / 2)` (`Carving.Start`).

## Model

| member | source | states |
|---|---|---|
| Rng.JsRem | src/LevelGenerator.js:226 | JavaScript's remainder: its magnitude is below the modulus, it has the dividend's sign, and it is the dividend minus a multiple of the modulus |
| Rng.NormaliseSeed | src/LevelGenerator.js:225-228 | the constructor as written: the state is in [0, 2^31 − 1), it is 0 exactly when the seed's remainder is −(2^31 − 2), and it is live otherwise |
| Rng.InitialState | src/LevelGenerator.js:225-228 | the corrected constructor: always a live state, and equal to the written one wherever that is not 0 |
| Rng.Next | src/LevelGenerator.js:230-233 | the state update keeps a live state live (2^31 − 1 is prime to 16807), keeps 0 at 0, and stays in [0, 2^31 − 1) |
| Rng.Unit | src/LevelGenerator.js:232 | `next()`'s value is in [0, 1) for a live state and negative for state 0 |
| Rng.Range | src/LevelGenerator.js:235-237 | `range(min, max)` makes exactly one draw, equals the floor of `next() * (max - min + 1) + min`, and lies in [min, max] for a live state and min ≤ max |
| Rng.AdvanceLive | src/LevelGenerator.js:230-233 | any number of draws from a live state leaves it live |
| Rng.AdvanceAdd | src/LevelGenerator.js:230-233 | a draws followed by b draws are a + b draws |
| Rng.ZeroIsStuck | src/LevelGenerator.js:231 | once the state is 0 it stays 0 for every number of draws |
| Rng.DegenerateSeed | src/LevelGenerator.js:226-227 | seed −2147483646 normalises to 0: the next `next()` is negative and `range(15, 30)` returns 14 |
| Rng.InitialStateRangeBounds | src/LevelGenerator.js:224-237 | after any number of draws from the corrected initial state, `range(min, max)` lies in [min, max] |
| Bsp.SplitLeaf | src/LevelGenerator.js:259-283 | an already split leaf gives false with no draw. Otherwise one coin is drawn. The axis is vertical when width > depth and width/depth ≥ 1.25, horizontal in the mirror case, and the coin (> 0.5 means horizontal) in all other cases. The split fails after one draw exactly when extent − minSize ≤ minSize. On success it makes two draws, and the halves tile the leaf along the axis. The first half's extent along the axis is exactly the value of the second draw, `range(minSize, extent − minSize)` taken at the state after the coin, and each half is at least minSize along it |
| Bsp.WideEnoughIff | src/LevelGenerator.js:267-268 | the ratio test `width / depth >= 1.25` (division by zero gives Infinity) is the integer test 4·width ≥ 5·depth |
| Bsp.TooSmallSettled | src/LevelGenerator.js:270-271 | a leaf the loop tries that fails its split is settled: both extents are below 37.5 |
| Bsp.Visit | src/LevelGenerator.js:28-34 | the loop body for one part keeps the array invariant and a live state, and advances the state by exactly the draws it reports. A part that is already split or no more than 30 along both axes costs 0 draws, a failed split attempt 1, and a successful split 2 (the array grows exactly then). The array never shrinks. When it does not grow it is unchanged. Only part `i` changes among the existing parts. Afterwards part `i` is either split or settled (both extents below 37.5). When the array grows, the two pushed parts are, in order, the halves `leaf.split` drew |
| Bsp.Pass | src/LevelGenerator.js:27-36 | one `for…of` pass from index `i`, which also visits leaves pushed during the pass: afterwards every unsplit part from `i` to the end of the grown array, pushed parts included, is settled, and the parts before `i` are untouched. It keeps the array invariant: the root is first, every part is a non-empty rectangle, every split part's children tile it, and the leaf areas sum to the root's area. It reports a split exactly when the array grew. When nothing was split it leaves the array unchanged, and every unsplit part from the start index on is settled |
| Bsp.SplitAll | src/LevelGenerator.js:23-37 | `while (didSplit)` terminates, and it stops only on a pass that splits nothing: it reports the live state that last pass started from, and a pass from that state over the final array sets no `didSplit`. At the end every unsplit part is settled and the array invariant holds |
| Bsp.Grow | src/LevelGenerator.js:29-31 | pushing the two halves of a successful split keeps the array invariant and adds two parts. The split part now has children, every other existing part is unchanged, and the two new parts are the first and second halves, unsplit, in that order |
| Bsp.Build | src/LevelGenerator.js:276-280 | the tree read from the array is well formed and room-free, and each of its leaves is an unsplit part of the array |
| Bsp.Partition | src/LevelGenerator.js:18-38 | the split phase on a map of at least 1 by 1: a well-formed, room-free tree over Rect(0, 0, width, depth). Every leaf is settled, and along each axis a leaf either spans the whole map or is at least 15 long |
| Bsp.LeavesCover | src/LevelGenerator.js:275-281 | the leaves of a well-formed tree cover exactly its rectangle |
| Bsp.LeavesDisjoint | src/LevelGenerator.js:275-281 | no cell lies in two leaves |
| Bsp.LeafWithin | src/LevelGenerator.js:275-281 | every leaf is a non-empty rectangle inside its tree's rectangle |
| Rooms.CreateRoom | src/LevelGenerator.js:294-316 | a leaf's room is w × d, where w is exactly the value of the first draw, `range(⌊0.7·maxW⌋, maxW)` with maxW = max(width − 4, 4), and d is exactly the value of the second draw, taken likewise from the depth at the state after the first. So w lies in [⌊0.7·maxW⌋, maxW], and likewise d. It is centred in the leaf, any odd unit after it. It lies inside the leaf when the leaf is at least 4 along an axis, with a margin of 2 when at least 8. Pillars need w > 20 and d > 20, and then come exactly when the third draw exceeds 0.3. It makes 2 draws, or 3 for rooms over 20 in both extents |
| Rooms.CreateRooms | src/LevelGenerator.js:285-318 | every leaf gets exactly one room and the tree shape is kept. Rooms are listed left before right, and the state advances by the sum of the rooms' draws |
| Rooms.RoomsInDrawOrder | src/LevelGenerator.js:285-316 | the k-th room is the one `createRoom` places in the k-th leaf with the state left after the rooms before it, so the left subtree's rooms take the earlier draws |
| Rooms.RoomsMatchLeaves | src/LevelGenerator.js:285-316 | the k-th room satisfies the placement rules for the k-th leaf |
| Rooms.DrawsAppend | src/LevelGenerator.js:287-288 | the draws of the left subtree then the right subtree add up |
| Rooms.DrawsAtLeast | src/LevelGenerator.js:301-302 | every room costs at least two draws |
| Rooms.Centre | src/LevelGenerator.js:320-330 | `getCenter`, in map coordinates: the point it gives for a furnished well-formed subtree lies in that subtree's rectangle, whichever rooms the leaves hold |
| Rooms.CentreInside | src/LevelGenerator.js:320-330 | `getCenter` of a furnished well-formed subtree lies in that subtree's rectangle, in map coordinates |
| Rooms.LeafCentreInside | src/LevelGenerator.js:321-323 | a room's centre lies inside its leaf |
| Corridors.Connect | src/LevelGenerator.js:180-215 | there is one piece when the centres share x or z, otherwise two. The first piece covers the left centre and the last covers the right one. In the L case both pieces cover the corner (p2.x, p1.z). Both the first and the last piece (so every piece) are strips: 4 wide across one axis, with non-negative extents. A straight piece is as long as the distance between the centres. The L's horizontal leg is that distance along x plus 4, and its vertical leg is the distance along z. Every piece lies between min − 2 and min + |Δ| + 4 along x, and between min − 2 and min + |Δ| + 2 along z |
| Corridors.ConnectChained | src/LevelGenerator.js:180-215 | consecutive pieces of a connection share a point |
| Corridors.GenerateCorridors | src/LevelGenerator.js:171-221 | a leaf adds nothing. A tree with n leaves gets between n − 1 and 2(n − 1) pieces |
| Corridors.CorridorsFlatten | src/LevelGenerator.js:171-221 | the tree's corridors are the connections of its inner nodes in pre-order (the node, then its left subtree, then its right subtree), concatenated |
| Corridors.SiblingsJoined | src/LevelGenerator.js:171-221 | the connection of every inner node's two children appears, contiguous and in order, among the tree's corridors, right after the connections of the inner nodes before it in pre-order |
| Corridors.CorridorsAreStrips | src/LevelGenerator.js:184-213 | every corridor piece of the tree is 4 wide across one axis, with non-negative extents |
| Corridors.CorridorEnds | src/LevelGenerator.js:176-177 | each connection starts at a point inside the left child's rectangle and ends at one inside the right child's |
| Carving.Solid | src/LevelGenerator.js:61-63 | a width × depth grid of walls |
| Carving.At | src/LevelGenerator.js:166-169 | `getGrid`: a cell outside the grid reads as wall, and a cell inside reads its tile |
| Carving.SetEmpty | src/LevelGenerator.js:65-78 | exactly the in-grid cells of the area's loop ranges become empty, and every other cell is unchanged |
| Carving.AddPillars | src/LevelGenerator.js:86-111 | exactly the in-grid pillar cells become wall: offsets 4 + 6k below extent − 4 on both axes, not both within 4 of the room's centre. Every other cell is unchanged, and a room without pillars changes nothing |
| Carving.NearCentreIff | src/LevelGenerator.js:104 | `Math.abs(p - w / 2) < 4` is the integer test −8 < 2p − w < 8 |
| Carving.PillarInside | src/LevelGenerator.js:99-106 | a pillar stands inside its room, at least 4 cells from each side |
| Carving.ExtractWalls | src/LevelGenerator.js:134-158 | a cell is listed exactly when it is an in-grid wall with an empty 4-neighbour, where outside counts as wall. Cells come in strictly row-major order, so each appears once |
| Carving.WallBoxCell | src/LevelGenerator.js:149-154 | the 1 × 1 block pushed for a cell maps back onto exactly that cell |
| Carving.RoomAreaCells | src/LevelGenerator.js:82 | `setEmpty` on a room's stored (centred) rectangle visits exactly the room's cells |
| Carving.CarveRooms | src/LevelGenerator.js:81-114 | the room loop produces the grid that the loop-free reference defines |
| Carving.CarveCorridors | src/LevelGenerator.js:123-125 | the corridor loop, run after the rooms, produces the reference grid |
| Carving.RoomStep | src/LevelGenerator.js:82-111 | after one room's carving and pillars, a pillar cell is wall, any other cell of the room is empty, and cells outside the room are untouched |
| Carving.RoomsTile | src/LevelGenerator.js:81-114 | when no two rooms share the cell, it is empty after the room loop exactly when some room holds it and it is not that room's pillar |
| Carving.FinalTile | src/LevelGenerator.js:81-125 | after rooms and corridors, a cell is empty exactly when some corridor carves it, or some room holds it and it is not that room's pillar |
| Generator.NewGenerator | src/LevelGenerator.js:4-12 | the generator starts with a live state that equals the written normalisation wherever that is not 0, and with no walls, rooms or corridors |
| Generator.NewDefaultGenerator | src/LevelGenerator.js:4 | without a seed argument the state is the default 12345, a live state kept as it is; no walls, rooms or corridors |
| Generator.Generate | src/LevelGenerator.js:14-164 | the rooms are those `createRooms` places in the partition. The corridors are those `generateCorridors` lays. The state is advanced first by the split phase's draws and then by the rooms' draws. The walls are exactly the in-map cells that are not open but have an open neighbour, where open means carved by a corridor or inside a room and not its pillar. Walls are in row-major order |
| Generator.CarveLevel | src/LevelGenerator.js:59-125 | when no two rooms share a cell, the carved grid is width × depth and a cell is empty exactly when it is open: carved by a corridor, or inside a room and not its pillar |
| Generator.LevelWalls | src/LevelGenerator.js:59-158 | when no two rooms share a cell, the wall list holds exactly the visible cells (in the map, not open, with an open 4-neighbour), in strictly row-major order |
| Generator.ExposedIsVisible | src/LevelGenerator.js:134-158 | on a grid whose empty cells are the open ones, the extraction test picks out exactly the visible cells |
| Generator.RoomsApart | src/LevelGenerator.js:18-41 | no two rooms of a generated level share a cell, on any map of at least 1 by 1 |
| Generator.RoomPairApart | src/LevelGenerator.js:294-316 | the rooms placed in two different leaves of one partition share no cell |
| Generator.RoomsFit | src/LevelGenerator.js:296-302 | every room is between 2 and 33 long along each axis, and on maps of at least 4 by 4 it lies inside the map |
| Generator.SharedCoordinate | src/LevelGenerator.js:296-306 | along an axis, rooms of two leaves that overlap force the leaves to overlap too |
| Player.NewPlayer | src/Player.js:15-26 | full health (100), alive, no movement key held |
| Player.TakeDamage | src/Player.js:178-187 | a dead player is unchanged. Otherwise health drops by the amount; at or below 0 it becomes 0 and the player dies. Keys and the maximum are untouched |
| Player.Heal | src/Player.js:189-195 | a dead player is unchanged. Otherwise health becomes min(health + amount, maxHealth): the sum exactly when it does not exceed the maximum |
| Player.MoveOf | src/Player.js:41-58 | ArrowUp/KeyW, ArrowLeft/KeyA, ArrowDown/KeyS and ArrowRight/KeyD select forward, left, backward and right, each exactly for those two codes |
| Player.Key | src/Player.js:40-80 | keydown sets and keyup clears the code's flag, every other flag is kept, and an unknown code changes nothing |
| Player.DirectionZ | src/Player.js:94 | forward − backward is in {−1, 0, 1}: 0 exactly when both or neither are held, 1 exactly for forward alone |
| Player.DirectionX | src/Player.js:95 | right − left is in {−1, 0, 1}: 0 exactly when both or neither are held, 1 exactly for right alone |
| Player.StepConsistent | src/Player.js:178-195 | a non-negative damage, heal or key event keeps 0 ≤ health ≤ max and isDead ⇔ health = 0 |
| Player.RunConsistent | src/Player.js:24-26 | every state reached by non-negative events from a consistent player is consistent |
| Player.NewPlayerConsistent | src/Player.js:24-26 | the same from a new player |
| Player.DeathIsFinal | src/Player.js:179 | after death no event revives the player or changes their health |
| Player.KeyUpAfterKeyDown | src/Player.js:40-80 | a keyup after a keydown of the same code leaves the state that the keyup alone leaves |
| Player.KeyDownIdempotent | src/Player.js:40-59 | a repeated keydown changes nothing |
| Weapon.NewWeapon | src/Weapon.js:18-22 | a full magazine of 30 and an open gate |
| Weapon.Shoot | src/Weapon.js:30-34 | it fires exactly when the gate is open and ammo > 0. Firing spends one round and closes the gate, and otherwise nothing changes |
| Weapon.Cooldown | src/Weapon.js:59-61 | the timer reopens the gate and changes no ammunition |
| Weapon.AddAmmo | src/Weapon.js:72-77 | ammo becomes min(ammo + amount, maxAmmo): the sum exactly when it fits |
| Weapon.SecondShotBlocked | src/Weapon.js:31-34 | without a cooldown, a second `shoot` does nothing |
| Weapon.AmmoInRange | src/Weapon.js:21-22 | ammo stays in [0, maxAmmo] under any trace of shots, cooldowns and non-negative pickups |
| Weapon.NewWeaponInRange | src/Weapon.js:21-22 | the same from a new weapon |
| Weapon.OneShotPerCooldown | src/Weapon.js:31-34 | between two cooldowns at most one shot fires. None fires if the gate starts closed, and after a shot the gate is closed |
| Weapon.ShotsSpendAmmo | src/Weapon.js:33-34 | without pickups, ammo drops by exactly the number of shots fired |

## Left out

- Rendering, the scene graph, meshes, lights, mouse capture and DOM wiring are plumbing with no logic to model. The same goes for the weapon's recoil, flash and hit raycast, and for `Player.update`'s velocity, `normalize` and collision checks.
- `setTimeout` is not modelled as time. The weapon's cooldown is the `CooldownElapsed` event, which a trace may contain at any point, including points the real timer could not reach.
- Enemy, projectile, particle, decal, pickup, texture and game-loop code is not part of this model.
- Spawn-point selection is not part of this model.
- Generator.Generate: requires a map of at least 1 by 1. A zero or negative size is a caller error that the source does not handle, and the split loop's termination rests on a positive area.
- Generator.Generate: covers only live generator states (requires `Rng.Live(gen.rng)`). The one non-live state, 0, is reached only through `Rng.NormaliseSeed` from seed −2147483646 (see "## Findings"). There the source still builds a level, with split offset 14, rooms one below their lower bound and no pillars, and the model does not describe that level. `Generator.NewGenerator` uses the corrected `Rng.InitialState`, so every generator it builds is live.
- Generator.Generate: a second `generate` continues the random sequence. The model states this through the returned state and does not compare two levels.
- Rng.Range: computes the exact floor of ((s − 1)·(max − min + 1)) / (2^31 − 2) + min. The source computes `next() * (max - min + 1) + min` in double precision. When the exact quotient is an integer and the range is wide, the rounded product can fall just below it and lose one. Room ranges have at most 11 values, but split ranges can be wider.
- Rng.Unit: `next()` is kept as an exact real. The comparisons with 0.5 and 0.3 are decided the same way for every state, because (s − 1)/(2^31 − 2) equals 0.5 exactly only for s = 2^30, where both `> 0.5` tests are false, and no other value lies within a double's rounding of 0.5 or 0.3.
- Rooms.LowerExtent: `Math.floor(maxW * 0.7)` is taken as (7·maxW)/10. The two agree for every maxW below 90. Bsp.Partition proves that every leaf the generator furnishes is below 37.5 along both axes, so maxW = max(extent − 4, 4) ≤ 33.
- Rooms.Centre: the `getCenter` averages are exact reals. In the source they are dyadic fractions of small numbers, which doubles hold exactly.
- Player.TakeDamage, Player.Heal: health and amounts are exact reals, without double rounding.
- Player.TakeDamage: the `console.log` on death is output only and is left out.
- Generator.Generate: map sizes are whole numbers, so the `Math.ceil` the source applies to width and depth before sizing the grid is the identity here.
- Carving.Solid: `new Array(gridW * gridD)` throws a RangeError beyond 2^32 − 1 cells. The model's grid has no such bound.
- Weapon.AddAmmo: ammunition and the amount are integers, which matches how the source uses them (it decrements ammo by 1).
- Bsp.Pass, Bsp.SplitAll: report how many draws they made, not the state they end in (SplitAll also reports the state its last pass started from). Bsp.Visit fixes each visit's draws (0, 1 or 2) and proves that the visit advances the state by them, and Pass and SplitAll hand that advanced state on. No lemma restates the sum for a whole pass.
- Generator.Generate: returns walls as grid cells. `Carving.WallBox` gives the 1 × 1 block in map coordinates that the source pushes, and Carving.WallBoxCell ties the two together.

## Findings

| source | as written | input that shows it | evidently intended | confidence | as-written member | corrected member |
|---|---|---|---|---|---|---|
| src/LevelGenerator.js:226-227 | `seed % 2147483647`, then `+ 2147483646` when the result is ≤ 0. A remainder of −2147483646 becomes 0, a fixed point of `next()`. | seed = −2147483646: the state is 0, every `next()` returns −1/2147483646, and `range(15, 30)` returns 14 | every seed gives a state in [1, 2147483646] | not executed | Rng.NormaliseSeed (shown by Rng.DegenerateSeed and Rng.ZeroIsStuck) | Rng.InitialState (Rng.InitialStateRangeBounds; used by Generator.NewGenerator) |

=== FILE: bsp.dfy ===
/**
 The binary space partition of src/LevelGenerator.js: `Leaf.split` and the
 split loop of `LevelGenerator.generate`.

 All coordinates here are integer grid coordinates with the origin at the
 map's top-left corner, as the `Leaf` class keeps them. The JavaScript loop
 iterates with `for...of` over an array `leafs` to which it pushes the two
 children of every successful split, so children pushed during a pass are
 visited later in the same pass. The model keeps that array as an arena: a
 sequence of parts, each holding its rectangle and the indices of its
 children once it has been split. `Build` then reads the tree off the arena,
 as `createRooms` and `generateCorridors` walk it through the child links.
 */
module Bsp {
  import Rng
  import opened Wrappers

  /** `this.minRoomSize` of the generator. */
  const MIN_ROOM_SIZE: int := 15

  datatype Rect = Rect(x: int, z: int, width: int, depth: int)

  /** The unit cell with top-left corner (px, pz) lies in `r`. */
  predicate Contains(r: Rect, px: int, pz: int) {
    r.x <= px < r.x + r.width && r.z <= pz < r.z + r.depth
  }

  predicate Proper(r: Rect) {
    r.width >= 1 && r.depth >= 1
  }

  function Area(r: Rect): int {
    r.width * r.depth
  }

  /** Horizontal cuts the Z axis (an upper and a lower half); Vertical cuts the X axis. */
  datatype Axis = Horizontal | Vertical

  function Extent(r: Rect, axis: Axis): int {
    match axis
    case Horizontal => r.depth
    case Vertical => r.width
  }

  /** `width > depth && width / depth >= 1.25`; JavaScript divides by 0 to +Infinity. */
  predicate WideEnough(r: Rect) {
    r.width > r.depth && (r.depth == 0 || r.width as real / r.depth as real >= 1.25)
  }

  /** `depth > width && depth / width >= 1.25`. */
  predicate DeepEnough(r: Rect) {
    r.depth > r.width && (r.width == 0 || r.depth as real / r.width as real >= 1.25)
  }

  /** `a` then `b` tile `p` exactly: one cut across one axis, nothing left over. */
  predicate TilesAlong(p: Rect, a: Rect, b: Rect, axis: Axis) {
    match axis
    case Horizontal =>
      && a.x == p.x && b.x == p.x && a.width == p.width && b.width == p.width
      && a.z == p.z && b.z == p.z + a.depth && a.depth + b.depth == p.depth
    case Vertical =>
      && a.z == p.z && b.z == p.z && a.depth == p.depth && b.depth == p.depth
      && a.x == p.x && b.x == p.x + a.width && a.width + b.width == p.width
  }

  predicate Tiles(p: Rect, a: Rect, b: Rect) {
    TilesAlong(p, a, b, Horizontal) || TilesAlong(p, a, b, Vertical)
  }

  // ----------------------------------------------------------------------
  // Leaf.split

  datatype Children = Childless | Children(left: nat, right: nat)

  /** One entry of the `leafs` array: a `Leaf` and its child links. */
  datatype Part = Part(bounds: Rect, children: Children)

  datatype SplitOutcome =
    | AlreadySplit(state: int)
    | TooSmall(axis: Axis, state: int)
    | Halves(axis: Axis, first: Rect, second: Rect, state: int)

  function ChooseAxis(r: Rect, coin: int): Axis {
    if WideEnough(r) then Vertical
    else if DeepEnough(r) then Horizontal
    else if Rng.CoinAboveHalf(coin) then Horizontal
    else Vertical
  }

  function Cut(r: Rect, axis: Axis, at: int): (Rect, Rect) {
    match axis
    case Horizontal => (Rect(r.x, r.z, r.width, at), Rect(r.x, r.z + at, r.width, r.depth - at))
    case Vertical => (Rect(r.x, r.z, at, r.depth), Rect(r.x + at, r.z, r.width - at, r.depth))
  }

  /**
   `Leaf.split(minSize)` with the generator state `rng`: one coin is drawn
   before the axis override and the size check, whichever way they go, and a
   second draw places the cut.
   */
  function SplitLeaf(p: Part, minSize: int, rng: int): (o: SplitOutcome)
    ensures p.children.Children? <==> o.AlreadySplit?
    ensures o.AlreadySplit? ==> o.state == rng
    ensures !o.AlreadySplit? && WideEnough(p.bounds) ==> o.axis == Vertical
    ensures !o.AlreadySplit? && DeepEnough(p.bounds) ==> o.axis == Horizontal
    ensures !o.AlreadySplit? && !WideEnough(p.bounds) && !DeepEnough(p.bounds) ==>
              (o.axis == Horizontal <==> Rng.Unit(Rng.Advance(rng, 1)) > 0.5)
    ensures o.TooSmall? <==> !o.AlreadySplit? && Extent(p.bounds, o.axis) - minSize <= minSize
    ensures o.TooSmall? ==> o.state == Rng.Advance(rng, 1)
    ensures o.Halves? ==> o.state == Rng.Advance(rng, 2) && TilesAlong(p.bounds, o.first, o.second, o.axis)
    ensures o.Halves? ==>
              Extent(o.first, o.axis) == Rng.Range(Rng.Advance(rng, 1), minSize, Extent(p.bounds, o.axis) - minSize).value
    ensures o.Halves? && Rng.Live(rng) ==>
              Extent(o.first, o.axis) >= minSize && Extent(o.second, o.axis) >= minSize
  {
    if p.children.Children? then AlreadySplit(rng)
    else
      var coin := Rng.Next(rng);
      var axis := ChooseAxis(p.bounds, coin);
      var max := Extent(p.bounds, axis) - minSize;
      if max <= minSize then TooSmall(axis, coin)
      else
        var d := Rng.Range(coin, minSize, max);
        Rng.AdvanceAdd(rng, 1, 1);
        var halves := Cut(p.bounds, axis, d.value);
        Halves(axis, halves.0, halves.1, d.state)
  }

  // ----------------------------------------------------------------------
  // The split loop

  /** The loop only tries leaves with `width > minRoomSize * 2 || depth > minRoomSize * 2`. */
  predicate Eligible(r: Rect) {
    r.width > MIN_ROOM_SIZE * 2 || r.depth > MIN_ROOM_SIZE * 2
  }

  /** What every leaf left when the loop stops satisfies: both extents below 2.5 * minRoomSize. */
  predicate Settled(r: Rect) {
    2 * r.width < 5 * MIN_ROOM_SIZE && 2 * r.depth < 5 * MIN_ROOM_SIZE
  }

  /** Along each axis a part keeps the whole root extent or was cut to at least minRoomSize. */
  predicate Sized(r: Rect, root: Rect) {
    (r.width == root.width || r.width >= MIN_ROOM_SIZE) && (r.depth == root.depth || r.depth >= MIN_ROOM_SIZE)
  }

  function SumOver(a: seq<Part>, f: Part -> int): int {
    if |a| == 0 then 0 else SumOver(a[..|a| - 1], f) + f(a[|a| - 1])
  }

  function LeafArea(p: Part): int {
    if p.children.Childless? then Area(p.bounds) else 0
  }

  function LeafCount(p: Part): int {
    if p.children.Childless? then 1 else 0
  }

  predicate Linked(a: seq<Part>) {
    forall j {:trigger a[j].children} :: 0 <= j < |a| && a[j].children.Children? ==>
      && j < a[j].children.left
      && a[j].children.right == a[j].children.left + 1
      && a[j].children.right < |a|
      && Tiles(a[j].bounds, a[a[j].children.left].bounds, a[a[j].children.right].bounds)
  }

  /** The invariant of the `leafs` array throughout the loop. */
  predicate ArenaInv(a: seq<Part>, root: Rect) {
    && |a| >= 1
    && a[0].bounds == root
    && (forall j :: 0 <= j < |a| ==> Proper(a[j].bounds) && Sized(a[j].bounds, root))
    && Linked(a)
    && SumOver(a, LeafArea) == Area(root)
    && |a| == 2 * SumOver(a, LeafCount) - 1
  }

  /**
   The array after a pass, how many draws the pass made, and `didSplit`. The
   generator state after the pass is the state before it advanced by `draws`
   (`Visit` shows that each part's draws advance the state that way).
   */
  datatype PassResult = PassResult(arena: seq<Part>, draws: nat, didSplit: bool)

  /** Every unsplit part from index `i` on is settled. */
  predicate SettledFrom(a: seq<Part>, i: nat) {
    forall j :: i <= j < |a| && a[j].children.Childless? ==> Settled(a[j].bounds)
  }

  lemma SettledStep(a: seq<Part>, i: nat)
    requires i < |a| && (a[i].children.Childless? ==> Settled(a[i].bounds))
    ensures SettledFrom(a, i + 1) ==> SettledFrom(a, i)
  {
  }

  /** The array, the generator state and the draws made after visiting one part. */
  datatype Visited = Visited(arena: seq<Part>, state: int, draws: nat)

  /**
   The body of the `for...of` loop for part `i`: an unsplit part wider or
   deeper than twice the minimum is split if it can be; the halves are pushed.
   */
  function Visit(a: seq<Part>, i: nat, rng: int, root: Rect): (v: Visited)
    requires ArenaInv(a, root) && Rng.Live(rng) && i < |a|
    ensures ArenaInv(v.arena, root) && Rng.Live(v.state)
    ensures v.state == Rng.Advance(rng, v.draws)
    ensures |a| <= |v.arena|
    ensures |v.arena| == |a| ==> v.arena == a && (a[i].children.Childless? ==> Settled(a[i].bounds))
    ensures v.draws == if a[i].children.Children? || !Eligible(a[i].bounds) then 0
                       else if |a| < |v.arena| then 2 else 1
    ensures forall j :: 0 <= j < |a| && j != i ==> v.arena[j] == a[j]
    ensures v.arena[i].children.Children? || Settled(v.arena[i].bounds)
    ensures |a| < |v.arena| ==>
              var o := SplitLeaf(a[i], MIN_ROOM_SIZE, rng);
              && o.Halves?
              && v.arena[|a|] == Part(o.first, Childless) && v.arena[|a| + 1] == Part(o.second, Childless)
  {
    var p := a[i];
    if p.children.Childless? && Eligible(p.bounds) then
      var o := SplitLeaf(p, MIN_ROOM_SIZE, rng);
      if o.Halves? then
        Rng.AdvanceLive(rng, 2);
        Visited(Grow(a, i, o, root), o.state, 2)
      else
        TooSmallSettled(p, o, rng);
        Rng.AdvanceLive(rng, 1);
        Visited(a, o.state, 1)
    else
      Visited(a, rng, 0)
  }

  /**
   One pass of the `for...of` loop from index `i` on. The bound of the
   iteration is re-read at every step, so parts appended by a split in this
   pass are visited in this pass.
   */
  function Pass(a: seq<Part>, i: nat, rng: int, root: Rect): (r: PassResult)
    requires ArenaInv(a, root) && Rng.Live(rng) && i <= |a|
    ensures ArenaInv(r.arena, root)
    ensures |a| <= |r.arena|
    ensures r.didSplit <==> |a| < |r.arena|
    ensures !r.didSplit ==> r.arena == a
    ensures !r.didSplit ==> SettledFrom(a, i)
    ensures forall j :: 0 <= j < i ==> r.arena[j] == a[j]
    ensures SettledFrom(r.arena, i)
    decreases 2 * Area(root) - i
  {
    ArenaBounded(a, root);
    if i == |a| then PassResult(a, 0, false)
    else
      var v := Visit(a, i, rng, root);
      var rest := Pass(v.arena, i + 1, v.state, root);
      if |a| < |v.arena| then
        PassResult(rest.arena, v.draws + rest.draws, true)
      else
        SettledStep(a, i);
        PassResult(rest.arena, v.draws + rest.draws, rest.didSplit)
  }

  /**
   The array when the loop stops, how many draws all its passes made, and the
   state the last pass (the one that split nothing) started from.
   */
  datatype SplitResult = SplitResult(arena: seq<Part>, draws: nat, lastState: int)

  /** `while (didSplit)`: passes repeat until one makes no split. */
  function SplitAll(a: seq<Part>, rng: int, root: Rect): (r: SplitResult)
    requires ArenaInv(a, root) && Rng.Live(rng)
    ensures ArenaInv(r.arena, root)
    ensures SettledFrom(r.arena, 0)
    ensures Rng.Live(r.lastState) && !Pass(r.arena, 0, r.lastState, root).didSplit
    decreases 2 * Area(root) - |a|
  {
    var p := Pass(a, 0, rng, root);
    if p.didSplit then
      ArenaBounded(p.arena, root);
      Rng.AdvanceLive(rng, p.draws);
      var rest := SplitAll(p.arena, Rng.Advance(rng, p.draws), root);
      SplitResult(rest.arena, p.draws + rest.draws, rest.lastState)
    else
      SplitResult(a, p.draws, rng)
  }

  /** The array after `leaf.split` succeeded on part `i`: its children are pushed. */
  function Grow(a: seq<Part>, i: nat, o: SplitOutcome, root: Rect): (a': seq<Part>)
    requires ArenaInv(a, root) && i < |a| && a[i].children.Childless? && o.Halves?
    requires TilesAlong(a[i].bounds, o.first, o.second, o.axis)
    requires Extent(o.first, o.axis) >= MIN_ROOM_SIZE && Extent(o.second, o.axis) >= MIN_ROOM_SIZE
    ensures ArenaInv(a', root)
    ensures |a'| == |a| + 2
    ensures forall j :: 0 <= j < |a| ==> a'[j].bounds == a[j].bounds
    ensures forall j :: 0 <= j < |a| && j != i ==> a'[j] == a[j]
    ensures a'[i].children.Children?
    ensures a'[|a|] == Part(o.first, Childless) && a'[|a| + 1] == Part(o.second, Childless)
  {
    var n := |a|;
    var a' := a[i := Part(a[i].bounds, Children(n, n + 1))]
              + [Part(o.first, Childless), Part(o.second, Childless)];
    GrowSums(a, i, o, a');
    assert a'[n] == Part(o.first, Childless) && a'[n + 1] == Part(o.second, Childless);
    assert forall j :: 0 <= j < n ==> a'[j].bounds == a[j].bounds;
    GrowLinked(a, i, o, a');
    a'
  }

  /** Splitting part `i` keeps the leaves' total area and adds one leaf. */
  lemma GrowSums(a: seq<Part>, i: nat, o: SplitOutcome, a': seq<Part>)
    requires i < |a| && a[i].children.Childless? && o.Halves?
    requires TilesAlong(a[i].bounds, o.first, o.second, o.axis)
    requires a' == a[i := Part(a[i].bounds, Children(|a|, |a| + 1))]
                   + [Part(o.first, Childless), Part(o.second, Childless)]
    ensures SumOver(a', LeafArea) == SumOver(a, LeafArea)
    ensures SumOver(a', LeafCount) == SumOver(a, LeafCount) + 1
  {
    var n := |a|;
    var b := a[i].bounds;
    var mid := a[i := Part(b, Children(n, n + 1))];
    SumUpdate(a, i, Part(b, Children(n, n + 1)), LeafArea);
    SumUpdate(a, i, Part(b, Children(n, n + 1)), LeafCount);
    assert a' == (mid + [Part(o.first, Childless)]) + [Part(o.second, Childless)];
    SumAppend(mid, Part(o.first, Childless), LeafArea);
    SumAppend(mid + [Part(o.first, Childless)], Part(o.second, Childless), LeafArea);
    SumAppend(mid, Part(o.first, Childless), LeafCount);
    SumAppend(mid + [Part(o.first, Childless)], Part(o.second, Childless), LeafCount);
    TilesArea(b, o.first, o.second, o.axis);
  }

  /** Pushing the two halves of part `i` and linking them keeps every split linked to its halves. */
  lemma GrowLinked(a: seq<Part>, i: nat, o: SplitOutcome, a': seq<Part>)
    requires Linked(a) && i < |a| && a[i].children.Childless? && o.Halves?
    requires Tiles(a[i].bounds, o.first, o.second)
    requires a' == a[i := Part(a[i].bounds, Children(|a|, |a| + 1))]
                   + [Part(o.first, Childless), Part(o.second, Childless)]
    ensures Linked(a')
  {
    forall j | 0 <= j < |a'| && a'[j].children.Children?
      ensures j < a'[j].children.left && a'[j].children.right == a'[j].children.left + 1
      ensures a'[j].children.right < |a'|
      ensures Tiles(a'[j].bounds, a'[a'[j].children.left].bounds, a'[a'[j].children.right].bounds)
    {
      if j != i {
        assert a'[j] == a[j];
      }
    }
  }

  // ----------------------------------------------------------------------
  // The tree read off the arena


  /** A room in grid coordinates (top-left corner), as `createRooms` computes it before centring on the map. */
  datatype Room = Room(x: int, z: int, width: int, depth: int, hasPillars: bool)

  datatype Node =
    | Leaf(bounds: Rect, room: Option<Room>)
    | Branch(bounds: Rect, left: Node, right: Node)

  /** Every rectangle is non-empty and every split tiles its parent. */
  predicate WellFormed(t: Node) {
    && Proper(t.bounds)
    && match t
       case Leaf(_, _) => true
       case Branch(b, l, r) => Tiles(b, l.bounds, r.bounds) && WellFormed(l) && WellFormed(r)
  }

  /** The leaves' rectangles, left before right. */
  function Leaves(t: Node): (ls: seq<Rect>)
    ensures |ls| >= 1
  {
    match t
    case Leaf(b, _) => [b]
    case Branch(_, l, r) => Leaves(l) + Leaves(r)
  }

  /** No leaf holds a room yet. */
  predicate Bare(t: Node) {
    match t
    case Leaf(_, room) => room.None?
    case Branch(_, l, r) => Bare(l) && Bare(r)
  }

  function Build(a: seq<Part>, i: nat): (t: Node)
    requires i < |a| && Linked(a)
    requires forall j :: 0 <= j < |a| ==> Proper(a[j].bounds)
    ensures t.bounds == a[i].bounds && WellFormed(t) && Bare(t)
    ensures forall k :: 0 <= k < |Leaves(t)| ==>
              exists j :: i <= j < |a| && a[j].children.Childless? && a[j].bounds == Leaves(t)[k]
    decreases |a| - i
  {
    match a[i].children
    case Childless => Leaf(a[i].bounds, None)
    case Children(l, r) =>
      var lt := Build(a, l);
      var rt := Build(a, r);
      var t := Branch(a[i].bounds, lt, rt);
      assert forall k :: 0 <= k < |Leaves(t)| ==>
          Leaves(t)[k] == if k < |Leaves(lt)| then Leaves(lt)[k] else Leaves(rt)[k - |Leaves(lt)|];
      t
  }

  datatype Partitioned = Partitioned(tree: Node, state: int, draws: nat)

  /**
   The split phase of `generate`: a root leaf over the whole map, passes
   until one splits nothing, and the resulting tree.
   */
  function Partition(width: int, depth: int, rng: int): (p: Partitioned)
    requires width >= 1 && depth >= 1 && Rng.Live(rng)
    ensures WellFormed(p.tree) && Bare(p.tree) && Rng.Live(p.state)
    ensures p.state == Rng.Advance(rng, p.draws)
    ensures p.tree.bounds == Rect(0, 0, width, depth)
    ensures forall k :: 0 <= k < |Leaves(p.tree)| ==>
              Settled(Leaves(p.tree)[k]) && Sized(Leaves(p.tree)[k], Rect(0, 0, width, depth))
  {
    var root := Rect(0, 0, width, depth);
    var start := [Part(root, Childless)];
    StartInv(root);
    var r := SplitAll(start, rng, root);
    var t := Build(r.arena, 0);
    Rng.AdvanceLive(rng, r.draws);
    Partitioned(t, Rng.Advance(rng, r.draws), r.draws)
  }

  // ----------------------------------------------------------------------
  // Proofs

  /** Some rectangle of `ls` holds the cell (px, pz). */
  predicate InSomeLeaf(ls: seq<Rect>, px: int, pz: int) {
    exists k :: 0 <= k < |ls| && Contains(ls[k], px, pz)
  }

  lemma InSomeLeafAppend(a: seq<Rect>, b: seq<Rect>, px: int, pz: int)
    ensures InSomeLeaf(a + b, px, pz) <==> InSomeLeaf(a, px, pz) || InSomeLeaf(b, px, pz)
  {
    if InSomeLeaf(a, px, pz) {
      var k :| 0 <= k < |a| && Contains(a[k], px, pz);
      assert (a + b)[k] == a[k];
    }
    if InSomeLeaf(b, px, pz) {
      var k :| 0 <= k < |b| && Contains(b[k], px, pz);
      assert (a + b)[|a| + k] == b[k];
    }
    if InSomeLeaf(a + b, px, pz) {
      var k :| 0 <= k < |a + b| && Contains((a + b)[k], px, pz);
      if k < |a| {
        assert (a + b)[k] == a[k];
      } else {
        assert (a + b)[k] == b[k - |a|];
      }
    }
  }

  /** The leaves of a well-formed tree cover exactly its rectangle ... */
  lemma {:induction false} LeavesCover(t: Node, px: int, pz: int)
    requires WellFormed(t)
    ensures Contains(t.bounds, px, pz) <==> InSomeLeaf(Leaves(t), px, pz)
  {
    match t
    case Leaf(b, _) =>
      assert Leaves(t)[0] == b;
    case Branch(b, l, r) =>
      LeavesCover(l, px, pz);
      LeavesCover(r, px, pz);
      TilesCells(b, l.bounds, r.bounds, px, pz);
      InSomeLeafAppend(Leaves(l), Leaves(r), px, pz);
  }

  /** ... and no cell lies in two of them. */
  lemma {:induction false} LeavesDisjoint(t: Node, j: int, k: int, px: int, pz: int)
    requires WellFormed(t) && 0 <= j < k < |Leaves(t)|
    ensures !(Contains(Leaves(t)[j], px, pz) && Contains(Leaves(t)[k], px, pz))
  {
    match t
    case Branch(b, l, r) =>
      var ls, rs := Leaves(l), Leaves(r);
      assert Leaves(t) == ls + rs;
      if k < |ls| {
        assert Leaves(t)[j] == ls[j] && Leaves(t)[k] == ls[k];
        LeavesDisjoint(l, j, k, px, pz);
      } else if j >= |ls| {
        assert Leaves(t)[j] == rs[j - |ls|] && Leaves(t)[k] == rs[k - |ls|];
        LeavesDisjoint(r, j - |ls|, k - |ls|, px, pz);
      } else {
        assert Leaves(t)[j] == ls[j] && Leaves(t)[k] == rs[k - |ls|];
        LeafWithin(l, j);
        LeafWithin(r, k - |ls|);
        TilesCells(b, l.bounds, r.bounds, px, pz);
      }
  }

  /** Every leaf is a proper rectangle inside the tree's rectangle. */
  lemma {:induction false} LeafWithin(t: Node, k: int)
    requires WellFormed(t) && 0 <= k < |Leaves(t)|
    ensures Proper(Leaves(t)[k])
    ensures t.bounds.x <= Leaves(t)[k].x && Leaves(t)[k].x + Leaves(t)[k].width <= t.bounds.x + t.bounds.width
    ensures t.bounds.z <= Leaves(t)[k].z && Leaves(t)[k].z + Leaves(t)[k].depth <= t.bounds.z + t.bounds.depth
  {
    match t
    case Leaf(b, _) =>
      assert Leaves(t)[k] == b;
    case Branch(b, l, r) =>
      var ls := Leaves(l);
      assert Leaves(t) == ls + Leaves(r);
      if k < |ls| {
        assert Leaves(t)[k] == ls[k];
        LeafWithin(l, k);
      } else {
        assert Leaves(t)[k] == Leaves(r)[k - |ls|];
        LeafWithin(r, k - |ls|);
      }
  }

  lemma TilesCells(p: Rect, a: Rect, b: Rect, px: int, pz: int)
    requires Tiles(p, a, b) && Proper(a) && Proper(b)
    ensures Contains(p, px, pz) <==> Contains(a, px, pz) || Contains(b, px, pz)
    ensures !(Contains(a, px, pz) && Contains(b, px, pz))
  {
  }

  lemma TilesArea(p: Rect, a: Rect, b: Rect, axis: Axis)
    requires TilesAlong(p, a, b, axis)
    ensures Area(p) == Area(a) + Area(b)
  {
    match axis
    case Horizontal =>
      assert p.width * p.depth == p.width * a.depth + p.width * b.depth;
    case Vertical =>
      assert p.width * p.depth == a.width * p.depth + b.width * p.depth;
  }

  lemma {:induction false} SumAppend(a: seq<Part>, p: Part, f: Part -> int)
    ensures SumOver(a + [p], f) == SumOver(a, f) + f(p)
  {
    assert (a + [p])[..|a|] == a;
  }

  lemma {:induction false} SumUpdate(a: seq<Part>, i: nat, p: Part, f: Part -> int)
    requires i < |a|
    ensures SumOver(a[i := p], f) == SumOver(a, f) - f(a[i]) + f(p)
    decreases |a|
  {
    var n := |a| - 1;
    if i == n {
      assert a[i := p][..n] == a[..n];
    } else {
      assert a[i := p][..n] == a[..n][i := p];
      SumUpdate(a[..n], i, p, f);
    }
  }

  /** Every leaf covers at least one cell, so there are no more leaves than cells. */
  lemma {:induction false} CountBelowArea(a: seq<Part>)
    requires forall j :: 0 <= j < |a| ==> Proper(a[j].bounds)
    ensures SumOver(a, LeafCount) <= SumOver(a, LeafArea)
    decreases |a|
  {
    if |a| > 0 {
      var n := |a| - 1;
      CountBelowArea(a[..n]);
      Rng.MulMonotone(1, a[n].bounds.width, a[n].bounds.depth);
    }
  }

  lemma StartInv(root: Rect)
    requires Proper(root)
    ensures ArenaInv([Part(root, Childless)], root)
  {
    var start := [Part(root, Childless)];
    assert start[..0] == [];
    Rng.MulMonotone(1, root.width, root.depth);
  }

  /** The array never holds more than 2 * area - 1 parts: the loop's termination measure. */
  lemma ArenaBounded(a: seq<Part>, root: Rect)
    requires ArenaInv(a, root)
    ensures |a| < 2 * Area(root)
  {
    CountBelowArea(a);
  }

  lemma WideEnoughIff(r: Rect)
    requires Proper(r)
    ensures WideEnough(r) <==> r.width > r.depth && 4 * r.width >= 5 * r.depth
    ensures DeepEnough(r) <==> r.depth > r.width && 4 * r.depth >= 5 * r.width
  {
    RatioAtLeast(r.width, r.depth);
    RatioAtLeast(r.depth, r.width);
  }

  /** The real quotient a / b reaches 1.25 exactly when 4a >= 5b. */
  lemma RatioAtLeast(a: int, b: int)
    requires b > 0
    ensures a as real / b as real >= 1.25 <==> 4 * a >= 5 * b
  {
    var q := a as real / b as real;
    assert q * b as real == a as real;
    if q >= 1.25 {
      assert q * b as real >= 1.25 * b as real;
    } else {
      assert q * b as real < 1.25 * b as real;
    }
  }

  /** A leaf the loop tried and could not split is settled. */
  lemma TooSmallSettled(p: Part, o: SplitOutcome, rng: int)
    requires Proper(p.bounds) && Eligible(p.bounds) && p.children.Childless?
    requires o == SplitLeaf(p, MIN_ROOM_SIZE, rng) && !o.Halves?
    ensures Settled(p.bounds)
  {
    WideEnoughIff(p.bounds);
  }
}

=== FILE: carving.dfy ===
/**
 The tile grid of `LevelGenerator.generate` in src/LevelGenerator.js:
 a solid grid, `setEmpty` carving rooms and corridors, pillars raised back
 into large rooms, `getGrid`, and the extraction of the wall cells that
 border an empty one.

 The source keeps the grid as one flat row-major array (`grid[z * gridW + x]`);
 the model keeps rows, `g[z][x]`. A map of integer `width` and `depth` has
 `Math.ceil(width)` by `Math.ceil(depth)` cells, that is `width` by `depth`.

 Besides the loops, the module defines the grid they produce without
 loops: `Painted` replays a list of paints (clear an area, raise a room's
 pillars) over a solid grid, the last paint touching a cell deciding it.
 */
module Carving {
  import opened Bsp
  import opened Rooms
  import opened Corridors

  datatype Tile = Wall | Empty

  type Grid = seq<seq<Tile>>

  predicate Shaped(g: Grid, width: int, depth: int) {
    |g| == depth && forall z :: 0 <= z < |g| ==> |g[z]| == width
  }

  predicate InGrid(x: int, z: int, width: int, depth: int) {
    0 <= x < width && 0 <= z < depth
  }

  /** `new Array(gridW * gridD).fill(1)`: every cell a wall. */
  function Solid(width: nat, depth: nat): (g: Grid)
    ensures Shaped(g, width, depth)
    ensures forall z, x :: InGrid(x, z, width, depth) ==> g[z][x] == Wall
  {
    seq(depth, _ => seq(width, _ => Wall))
  }

  /** `getGrid`: the tile at (x, z), a wall outside the grid. */
  function At(g: Grid, width: int, depth: int, x: int, z: int): (t: Tile)
    requires Shaped(g, width, depth)
    ensures !InGrid(x, z, width, depth) ==> t == Wall
    ensures InGrid(x, z, width, depth) ==> t == g[z][x]
  {
    if x < 0 || x >= width || z < 0 || z >= depth then Wall else g[z][x]
  }

  /** `Math.floor(coord + size / 2)`: the grid index of a map coordinate. */
  function Start(coord: real, size: int): int {
    (coord + Half(size)).Floor
  }

  /** The loop `for (i = start; i < start + extent; i++)` visits `i`. */
  predicate InSpan(start: int, extent: real, i: int) {
    start <= i && (i as real) < start as real + extent
  }

  /** `setEmpty(a.x, a.z, a.width, a.depth)` visits cell (x, z). */
  predicate Carves(a: Area, width: int, depth: int, x: int, z: int) {
    InSpan(Start(a.x, width), a.width, x) && InSpan(Start(a.z, depth), a.depth, z)
  }

  /** `setEmpty`: every visited cell inside the grid becomes empty; nothing else changes. */
  method SetEmpty(g: Grid, width: int, depth: int, a: Area) returns (g': Grid)
    requires Shaped(g, width, depth)
    ensures Shaped(g', width, depth)
    ensures forall z, x :: InGrid(x, z, width, depth) ==>
              g'[z][x] == if Carves(a, width, depth, x, z) then Empty else g[z][x]
  {
    var startX := Start(a.x, width);
    var startZ := Start(a.z, depth);
    var endX := startX as real + a.width;
    var endZ := startZ as real + a.depth;
    g' := g;
    var i := startX;
    while (i as real) < endX
      invariant Shaped(g', width, depth)
      invariant startX <= i && (i == startX || ((i - 1) as real) < endX)
      invariant forall z, x :: InGrid(x, z, width, depth) ==>
                  g'[z][x] == if startX <= x < i && InSpan(startZ, a.depth, z) then Empty else g[z][x]
      decreases endX.Floor + 1 - i
    {
      var j := startZ;
      while (j as real) < endZ
        invariant Shaped(g', width, depth)
        invariant startZ <= j && (j == startZ || ((j - 1) as real) < endZ)
        invariant forall z, x :: InGrid(x, z, width, depth) ==>
                    g'[z][x] == if (startX <= x < i && InSpan(startZ, a.depth, z)) || (x == i && startZ <= z < j)
                                then Empty else g[z][x]
        decreases endZ.Floor + 1 - j
      {
        if i >= 0 && i < width && j >= 0 && j < depth {
          g' := g'[j := g'[j][i := Empty]];
        }
        j := j + 1;
      }
      i := i + 1;
    }
  }

  const PILLAR_SPACING: int := 6

  /** The pillar loops start 4 in and step by 6 while below `extent - 4`. */
  predicate PillarOffset(o: int, extent: int) {
    4 <= o < extent - 4 && (o - 4) % PILLAR_SPACING == 0
  }

  /** `Math.abs(o - extent / 2) < 4`, in integers. */
  predicate NearCentre(o: int, extent: int) {
    -8 < 2 * o - extent < 8
  }

  /** Cell (x, z) holds one of `room`'s pillars: on the lattice, not in the middle. */
  predicate Pillar(room: Room, x: int, z: int) {
    && room.hasPillars
    && PillarOffset(x - room.x, room.width)
    && PillarOffset(z - room.z, room.depth)
    && !(NearCentre(x - room.x, room.width) && NearCentre(z - room.z, room.depth))
  }

  /** The room in centred map coordinates, as the source stores it and passes it to `setEmpty`. */
  function RoomArea(room: Room, width: int, depth: int): (a: Area)
    ensures a.width == room.width as real && a.depth == room.depth as real
  {
    Area(room.x as real - Half(width), room.z as real - Half(depth), room.width as real, room.depth as real)
  }

  /** The pillar part of the room loop: raise a wall at every pillar cell inside the grid. */
  method AddPillars(g: Grid, width: int, depth: int, room: Room) returns (g': Grid)
    requires Shaped(g, width, depth)
    ensures Shaped(g', width, depth)
    ensures forall z, x :: InGrid(x, z, width, depth) ==>
              g'[z][x] == if Pillar(room, x, z) then Wall else g[z][x]
  {
    g' := g;
    if !room.hasPillars {
      return;
    }
    var area := RoomArea(room, width, depth);
    var startX := Start(area.x, width);
    var startZ := Start(area.z, depth);
    assert startX == room.x && startZ == room.z;
    var px := 4;
    while px < room.width - 4
      invariant 4 <= px && (px - 4) % PILLAR_SPACING == 0
      invariant Shaped(g', width, depth)
      invariant forall z, x :: InGrid(x, z, width, depth) ==>
                  g'[z][x] == if Pillar(room, x, z) && x - room.x < px then Wall else g[z][x]
    {
      var pz := 4;
      while pz < room.depth - 4
        invariant 4 <= pz && (pz - 4) % PILLAR_SPACING == 0
        invariant Shaped(g', width, depth)
        invariant forall z, x :: InGrid(x, z, width, depth) ==>
                    g'[z][x] == if Pillar(room, x, z) && (x - room.x < px || (x - room.x == px && z - room.z < pz))
                                then Wall else g[z][x]
      {
        var cx := Half(room.width);
        var cz := Half(room.depth);
        NearCentreIff(px, room.width);
        NearCentreIff(pz, room.depth);
        if !(Abs(px as real - cx) < 4.0 && Abs(pz as real - cz) < 4.0) {
          var gx := startX + px;
          var gz := startZ + pz;
          if gx >= 0 && gx < width && gz >= 0 && gz < depth {
            g' := g'[gz := g'[gz][gx := Wall]];
          }
        }
        pz := pz + PILLAR_SPACING;
      }
      px := px + PILLAR_SPACING;
    }
  }

  /** A wall cell with an empty neighbour: the player can see it. */
  predicate Exposed(g: Grid, width: int, depth: int, x: int, z: int)
    requires Shaped(g, width, depth)
  {
    && At(g, width, depth, x, z) == Wall
    && (|| At(g, width, depth, x + 1, z) == Empty
        || At(g, width, depth, x - 1, z) == Empty
        || At(g, width, depth, x, z + 1) == Empty
        || At(g, width, depth, x, z - 1) == Empty)
  }

  datatype Cell = Cell(x: int, z: int)

  /** Row-major order: the order the extraction loops visit cells. */
  predicate Before(a: Cell, b: Cell) {
    a.z < b.z || (a.z == b.z && a.x < b.x)
  }

  /** The wall extraction loop: the exposed cells, each once, row by row. */
  method ExtractWalls(g: Grid, width: int, depth: int) returns (walls: seq<Cell>)
    requires Shaped(g, width, depth)
    ensures forall c :: c in walls <==> InGrid(c.x, c.z, width, depth) && Exposed(g, width, depth, c.x, c.z)
    ensures forall j, k :: 0 <= j < k < |walls| ==> Before(walls[j], walls[k])
  {
    walls := [];
    var z := 0;
    while z < depth
      invariant 0 <= z && (depth >= 0 ==> z <= depth)
      invariant forall c :: c in walls <==>
                  InGrid(c.x, c.z, width, depth) && c.z < z && Exposed(g, width, depth, c.x, c.z)
      invariant forall j, k :: 0 <= j < k < |walls| ==> Before(walls[j], walls[k])
      invariant forall j :: 0 <= j < |walls| ==> walls[j].z < z
    {
      var x := 0;
      while x < width
        invariant 0 <= x && (width >= 0 ==> x <= width)
        invariant forall c :: c in walls <==>
                    InGrid(c.x, c.z, width, depth) && (c.z < z || (c.z == z && c.x < x)) && Exposed(g, width, depth, c.x, c.z)
        invariant forall j, k :: 0 <= j < k < |walls| ==> Before(walls[j], walls[k])
        invariant forall j :: 0 <= j < |walls| ==> Before(walls[j], Cell(x, z))
      {
        if g[z][x] == Wall {
          var neighbours := [At(g, width, depth, x + 1, z), At(g, width, depth, x - 1, z),
                             At(g, width, depth, x, z + 1), At(g, width, depth, x, z - 1)];
          if Empty in neighbours {
            walls := walls + [Cell(x, z)];
          }
        }
        x := x + 1;
      }
      z := z + 1;
    }
  }

  /** The wall block pushed for cell `c`: a unit square centred on the cell, in map coordinates. */
  function WallBox(c: Cell, width: int, depth: int): Area {
    Area(c.x as real - Half(width) + 0.5, c.z as real - Half(depth) + 0.5, 1.0, 1.0)
  }

  /** The `rooms.forEach` loop: carve each room, then raise its pillars. */
  method CarveRooms(g: Grid, width: int, depth: int, rooms: seq<Room>) returns (g': Grid)
    requires Shaped(g, width, depth)
    requires forall z, x :: InGrid(x, z, width, depth) ==> g[z][x] == Wall
    ensures Shaped(g', width, depth)
    ensures forall z, x :: InGrid(x, z, width, depth) ==>
              g'[z][x] == Painted(RoomsPaints(rooms, width, depth), width, depth, x, z)
  {
    g' := g;
    var k := 0;
    while k < |rooms|
      invariant 0 <= k <= |rooms|
      invariant Shaped(g', width, depth)
      invariant forall z, x :: InGrid(x, z, width, depth) ==>
                  g'[z][x] == Painted(RoomsPaints(rooms[..k], width, depth), width, depth, x, z)
    {
      var room := rooms[k];
      var before := RoomsPaints(rooms[..k], width, depth);
      assert rooms[..k + 1][..k] == rooms[..k];
      assert RoomsPaints(rooms[..k + 1], width, depth) == before + RoomPaints(room, width, depth);
      var g1 := SetEmpty(g', width, depth, RoomArea(room, width, depth));
      var g2 := g1;
      if room.hasPillars {
        g2 := AddPillars(g1, width, depth, room);
      }
      forall z, x | InGrid(x, z, width, depth)
        ensures g2[z][x] == Painted(before + RoomPaints(room, width, depth), width, depth, x, z)
      {
        RoomAreaCells(room, width, depth, x, z);
        RoomStep(before, room, width, depth, x, z);
      }
      g' := g2;
      k := k + 1;
    }
    assert rooms[..|rooms|] == rooms;
  }

  /** The `corridors.forEach` loop: carve each corridor after the rooms. */
  method CarveCorridors(g: Grid, width: int, depth: int, rooms: seq<Room>, corridors: seq<Area>) returns (g': Grid)
    requires Shaped(g, width, depth)
    requires forall z, x :: InGrid(x, z, width, depth) ==>
               g[z][x] == Painted(RoomsPaints(rooms, width, depth), width, depth, x, z)
    ensures Shaped(g', width, depth)
    ensures forall z, x :: InGrid(x, z, width, depth) ==>
              g'[z][x] == Painted(Paints(rooms, corridors, width, depth), width, depth, x, z)
  {
    g' := g;
    var c := 0;
    assert Paints(rooms, corridors[..0], width, depth) == RoomsPaints(rooms, width, depth);
    while c < |corridors|
      invariant 0 <= c <= |corridors|
      invariant Shaped(g', width, depth)
      invariant forall z, x :: InGrid(x, z, width, depth) ==>
                  g'[z][x] == Painted(Paints(rooms, corridors[..c], width, depth), width, depth, x, z)
    {
      var g1 := SetEmpty(g', width, depth, corridors[c]);
      assert corridors[..c + 1][..c] == corridors[..c];
      forall z, x | InGrid(x, z, width, depth)
        ensures g1[z][x] == Painted(Paints(rooms, corridors[..c + 1], width, depth), width, depth, x, z)
      {
        LastCorridor(rooms, corridors[..c + 1], width, depth, x, z);
      }
      g' := g1;
      c := c + 1;
    }
    assert corridors[..|corridors|] == corridors;
  }

  // ----------------------------------------------------------------------
  // The grid without loops

  datatype Paint = Clear(area: Area) | Raise(room: Room)

  function Apply(p: Paint, width: int, depth: int, x: int, z: int, t: Tile): Tile {
    match p
    case Clear(a) => if Carves(a, width, depth, x, z) then Empty else t
    case Raise(room) => if Pillar(room, x, z) then Wall else t
  }

  /** The tile of cell (x, z) after the paints `ps`, in order, on a solid grid. */
  function Painted(ps: seq<Paint>, width: int, depth: int, x: int, z: int): Tile {
    if |ps| == 0 then Wall
    else Apply(ps[|ps| - 1], width, depth, x, z, Painted(ps[..|ps| - 1], width, depth, x, z))
  }

  /** One room of the `forEach`: carve it, then raise its pillars if it has them. */
  function RoomPaints(room: Room, width: int, depth: int): seq<Paint> {
    [Clear(RoomArea(room, width, depth))] + if room.hasPillars then [Raise(room)] else []
  }

  function RoomsPaints(rooms: seq<Room>, width: int, depth: int): seq<Paint> {
    if |rooms| == 0 then []
    else RoomsPaints(rooms[..|rooms| - 1], width, depth) + RoomPaints(rooms[|rooms| - 1], width, depth)
  }

  function Clears(cs: seq<Area>): seq<Paint> {
    if |cs| == 0 then [] else Clears(cs[..|cs| - 1]) + [Clear(cs[|cs| - 1])]
  }

  /** Everything `generate` paints: the rooms in order, then the corridors in order. */
  function Paints(rooms: seq<Room>, corridors: seq<Area>, width: int, depth: int): seq<Paint> {
    RoomsPaints(rooms, width, depth) + Clears(corridors)
  }

  predicate InRoom(room: Room, x: int, z: int) {
    room.x <= x < room.x + room.width && room.z <= z < room.z + room.depth
  }

  /** At most one room holds the cell (x, z). */
  predicate Unshared(rooms: seq<Room>, x: int, z: int) {
    forall j, k :: 0 <= j < k < |rooms| ==> !(InRoom(rooms[j], x, z) && InRoom(rooms[k], x, z))
  }

  // ----------------------------------------------------------------------
  // Proofs

  lemma NearCentreIff(o: int, extent: int)
    ensures NearCentre(o, extent) <==> Abs(o as real - Half(extent)) < 4.0
  {
  }

  /** `setEmpty` on a room visits exactly the room's cells. */
  lemma RoomAreaCells(room: Room, width: int, depth: int, x: int, z: int)
    ensures Carves(RoomArea(room, width, depth), width, depth, x, z) <==> InRoom(room, x, z)
  {
    var a := RoomArea(room, width, depth);
    assert Start(a.x, width) == room.x;
    assert Start(a.z, depth) == room.z;
  }

  /** A wall block, mapped back to the grid, covers exactly its own cell. */
  lemma WallBoxCell(c: Cell, width: int, depth: int, x: int, z: int)
    ensures Carves(WallBox(c, width, depth), width, depth, x, z) <==> x == c.x && z == c.z
  {
    var a := WallBox(c, width, depth);
    assert a.x + Half(width) == c.x as real + 0.5;
    assert a.z + Half(depth) == c.z as real + 0.5;
    assert Start(a.x, width) == c.x;
    assert Start(a.z, depth) == c.z;
  }

  /** Pillars stand inside their room, at least four cells from each side. */
  lemma PillarInside(room: Room, x: int, z: int)
    requires Pillar(room, x, z)
    ensures InRoom(room, x, z)
    ensures room.x + 4 <= x < room.x + room.width - 4 && room.z + 4 <= z < room.z + room.depth - 4
  {
  }

  lemma PaintedSnoc(ps: seq<Paint>, p: Paint, width: int, depth: int, x: int, z: int)
    ensures Painted(ps + [p], width, depth, x, z) == Apply(p, width, depth, x, z, Painted(ps, width, depth, x, z))
  {
    assert (ps + [p])[..|ps|] == ps;
  }

  /** The tile after one more room, from the tile before it. */
  lemma RoomStep(ps: seq<Paint>, room: Room, width: int, depth: int, x: int, z: int)
    ensures Painted(ps + RoomPaints(room, width, depth), width, depth, x, z) ==
              if Pillar(room, x, z) then Wall
              else if InRoom(room, x, z) then Empty
              else Painted(ps, width, depth, x, z)
  {
    var clear := Clear(RoomArea(room, width, depth));
    RoomAreaCells(room, width, depth, x, z);
    PaintedSnoc(ps, clear, width, depth, x, z);
    if room.hasPillars {
      assert ps + RoomPaints(room, width, depth) == (ps + [clear]) + [Raise(room)];
      PaintedSnoc(ps + [clear], Raise(room), width, depth, x, z);
    } else {
      assert ps + RoomPaints(room, width, depth) == ps + [clear];
      assert !Pillar(room, x, z);
    }
    if Pillar(room, x, z) {
      PillarInside(room, x, z);
    }
  }

  /**
   After the room paints, a cell is empty exactly when some room holds it
   and it is not that room's pillar (rooms not sharing the cell).
   */
  lemma {:induction false} RoomsTile(rooms: seq<Room>, width: int, depth: int, x: int, z: int)
    requires Unshared(rooms, x, z)
    ensures Painted(RoomsPaints(rooms, width, depth), width, depth, x, z) == Empty <==>
              exists k :: 0 <= k < |rooms| && InRoom(rooms[k], x, z) && !Pillar(rooms[k], x, z)
    decreases |rooms|
  {
    if |rooms| > 0 {
      var n := |rooms| - 1;
      var front := rooms[..n];
      var last := rooms[n];
      assert Unshared(front, x, z) by {
        forall j, k | 0 <= j < k < |front|
          ensures !(InRoom(front[j], x, z) && InRoom(front[k], x, z))
        {
          assert front[j] == rooms[j] && front[k] == rooms[k];
        }
      }
      RoomsTile(front, width, depth, x, z);
      RoomStep(RoomsPaints(front, width, depth), last, width, depth, x, z);
      if InRoom(last, x, z) {
        if !Pillar(last, x, z) {
          assert InRoom(rooms[n], x, z) && !Pillar(rooms[n], x, z);
        } else {
          forall k | 0 <= k < |rooms| && InRoom(rooms[k], x, z)
            ensures Pillar(rooms[k], x, z)
          {
            if k < n {
              assert false;
            }
          }
        }
      } else {
        assert !Pillar(last, x, z) by {
          if Pillar(last, x, z) {
            PillarInside(last, x, z);
          }
        }
        if exists k :: 0 <= k < |rooms| && InRoom(rooms[k], x, z) && !Pillar(rooms[k], x, z) {
          var k :| 0 <= k < |rooms| && InRoom(rooms[k], x, z) && !Pillar(rooms[k], x, z);
          assert k < n && front[k] == rooms[k];
        }
        if exists k :: 0 <= k < |front| && InRoom(front[k], x, z) && !Pillar(front[k], x, z) {
          var k :| 0 <= k < |front| && InRoom(front[k], x, z) && !Pillar(front[k], x, z);
          assert rooms[k] == front[k];
        }
      }
    }
  }

  lemma LastCorridor(rooms: seq<Room>, corridors: seq<Area>, width: int, depth: int, x: int, z: int)
    requires |corridors| > 0
    ensures Painted(Paints(rooms, corridors, width, depth), width, depth, x, z) ==
              if Carves(corridors[|corridors| - 1], width, depth, x, z) then Empty
              else Painted(Paints(rooms, corridors[..|corridors| - 1], width, depth), width, depth, x, z)
  {
    var n := |corridors| - 1;
    var rp := RoomsPaints(rooms, width, depth);
    var cf := Clears(corridors[..n]);
    assert Clears(corridors) == cf + [Clear(corridors[n])];
    assert Paints(rooms, corridors, width, depth) == (rp + cf) + [Clear(corridors[n])];
    PaintedSnoc(rp + cf, Clear(corridors[n]), width, depth, x, z);
  }

  /**
   After all paints, a cell is empty exactly when a corridor carves it, or
   some room holds it and it is not that room's pillar.
   */
  lemma {:induction false} FinalTile(rooms: seq<Room>, corridors: seq<Area>, width: int, depth: int, x: int, z: int)
    requires Unshared(rooms, x, z)
    ensures Painted(Paints(rooms, corridors, width, depth), width, depth, x, z) == Empty <==>
              (exists k :: 0 <= k < |corridors| && Carves(corridors[k], width, depth, x, z)) ||
              (exists k :: 0 <= k < |rooms| && InRoom(rooms[k], x, z) && !Pillar(rooms[k], x, z))
    decreases |corridors|
  {
    var rp := RoomsPaints(rooms, width, depth);
    if |corridors| == 0 {
      assert Paints(rooms, corridors, width, depth) == rp;
      RoomsTile(rooms, width, depth, x, z);
    } else {
      var n := |corridors| - 1;
      var front := corridors[..n];
      FinalTile(rooms, front, width, depth, x, z);
      LastCorridor(rooms, corridors, width, depth, x, z);
      if exists k :: 0 <= k < |front| && Carves(front[k], width, depth, x, z) {
        var k :| 0 <= k < |front| && Carves(front[k], width, depth, x, z);
        assert corridors[k] == front[k];
      }
      if exists k :: 0 <= k < |corridors| && Carves(corridors[k], width, depth, x, z) {
        var k :| 0 <= k < |corridors| && Carves(corridors[k], width, depth, x, z);
        if k < n {
          assert front[k] == corridors[k];
        }
      }
    }
  }
}

=== FILE: corridors.dfy ===
/**
 Corridors: `LevelGenerator.generateCorridors` of src/LevelGenerator.js.

 Every inner node of the split tree joins the `getCenter` of its two
 children with a corridor four units wide: one straight piece when the two
 centres share an X or a Z coordinate, otherwise an L made of a horizontal
 leg along the first centre's Z and a vertical leg along the second
 centre's X. Corridors live in centred map coordinates, as reals.
 */
module Corridors {
  import opened Bsp
  import opened Rooms

  const CORRIDOR_WIDTH: real := 4.0

  /** An axis-aligned rectangle in map coordinates (`{ x, z, width, depth }`). */
  datatype Area = Area(x: real, z: real, width: real, depth: real)

  function Abs(a: real): (r: real)
    ensures r >= 0.0 && (r == a || r == -a)
  {
    if a < 0.0 then -a else a
  }

  function Min(a: real, b: real): (r: real)
    ensures r <= a && r <= b && (r == a || r == b)
  {
    if a <= b then a else b
  }

  /** `p` lies in the closed rectangle `a`. */
  predicate Covers(a: Area, p: Point) {
    a.x <= p.x <= a.x + a.width && a.z <= p.z <= a.z + a.depth
  }

  /** A piece four units across and of non-negative length. */
  predicate Strip(a: Area) {
    a.width >= 0.0 && a.depth >= 0.0 && (a.width == CORRIDOR_WIDTH || a.depth == CORRIDOR_WIDTH)
  }

  /** Consecutive pieces share a point: walking them leads from the first to the last. */
  ghost predicate Chained(cs: seq<Area>) {
    forall k :: 0 <= k < |cs| - 1 ==> exists p :: Covers(cs[k], p) && Covers(cs[k + 1], p)
  }

  /** The piece or pieces joining the centres `p1` (left child) and `p2` (right child). */
  function Connect(p1: Point, p2: Point): (cs: seq<Area>)
    ensures |cs| == 1 <==> p1.x == p2.x || p1.z == p2.z
    ensures |cs| == 1 || |cs| == 2
    ensures Covers(cs[0], p1) && Covers(cs[|cs| - 1], p2)
    ensures |cs| == 2 ==> Covers(cs[0], Point(p2.x, p1.z)) && Covers(cs[1], Point(p2.x, p1.z))
    ensures Strip(cs[0]) && Strip(cs[|cs| - 1])
    ensures |cs| == 1 ==> cs[0].width + cs[0].depth == CORRIDOR_WIDTH + Abs(p1.x - p2.x) + Abs(p1.z - p2.z)
    ensures |cs| == 2 ==> cs[0].width == Abs(p1.x - p2.x) + 4.0 && cs[1].depth == Abs(p1.z - p2.z)
    ensures forall k :: 0 <= k < |cs| ==>
              && Min(p1.x, p2.x) - 2.0 <= cs[k].x && cs[k].x + cs[k].width <= Min(p1.x, p2.x) + Abs(p1.x - p2.x) + 4.0
              && Min(p1.z, p2.z) - 2.0 <= cs[k].z && cs[k].z + cs[k].depth <= Min(p1.z, p2.z) + Abs(p1.z - p2.z) + 2.0
  {
    if p1.x == p2.x then
      [Area(p1.x - 2.0, Min(p1.z, p2.z), CORRIDOR_WIDTH, Abs(p1.z - p2.z))]
    else if p1.z == p2.z then
      [Area(Min(p1.x, p2.x), p1.z - 2.0, Abs(p1.x - p2.x), CORRIDOR_WIDTH)]
    else
      [ Area(Min(p1.x, p2.x), p1.z - 2.0, Abs(p1.x - p2.x) + 4.0, CORRIDOR_WIDTH),
        Area(p2.x - 2.0, Min(p1.z, p2.z), CORRIDOR_WIDTH, Abs(p1.z - p2.z)) ]
  }

  /** The corridor pieces `generateCorridors` lays for the inner node `n`. */
  function Joining(n: Node, width: int, depth: int): seq<Area>
    requires n.Branch?
  {
    Connect(Centre(n.left, width, depth), Centre(n.right, width, depth))
  }

  /** `generateCorridors`: the node's own corridor, then the left subtree's, then the right's. */
  function GenerateCorridors(t: Node, width: int, depth: int): (cs: seq<Area>)
    ensures t.Leaf? <==> |cs| == 0
    ensures |Leaves(t)| - 1 <= |cs| <= 2 * (|Leaves(t)| - 1)
  {
    match t
    case Leaf(_, _) => []
    case Branch(_, l, r) =>
      Joining(t, width, depth) + GenerateCorridors(l, width, depth) + GenerateCorridors(r, width, depth)
  }

  /** The inner nodes of a tree in pre-order. */
  function Branches(t: Node): (bs: seq<Node>)
    ensures forall k :: 0 <= k < |bs| ==> bs[k].Branch?
  {
    match t
    case Leaf(_, _) => []
    case Branch(_, l, r) => [t] + Branches(l) + Branches(r)
  }

  /** `sub` occurs in `all` starting at index `i`. */
  predicate OccursAt(sub: seq<Area>, all: seq<Area>, i: int) {
    0 <= i && i + |sub| <= |all| && all[i..i + |sub|] == sub
  }

  /** The pieces of each inner node of `bs`. */
  function JoinAll(bs: seq<Node>, width: int, depth: int): (ps: seq<seq<Area>>)
    requires forall k :: 0 <= k < |bs| ==> bs[k].Branch?
    ensures |ps| == |bs|
  {
    if |bs| == 0 then [] else [Joining(bs[0], width, depth)] + JoinAll(bs[1..], width, depth)
  }

  function Concat(ps: seq<seq<Area>>): seq<Area> {
    if |ps| == 0 then [] else ps[0] + Concat(ps[1..])
  }

  /** Where the pieces of the `k`-th inner node (in pre-order) start among the tree's corridors. */
  function JoinAt(t: Node, k: int, width: int, depth: int): int
    requires 0 <= k < |Branches(t)|
  {
    |Concat(JoinAll(Branches(t), width, depth)[..k])|
  }

  // ----------------------------------------------------------------------
  // Proofs

  /** The pieces `Connect` lays lead from the first centre to the second. */
  lemma ConnectChained(p1: Point, p2: Point)
    ensures Chained(Connect(p1, p2))
  {
    var cs := Connect(p1, p2);
    if |cs| == 2 {
      assert Covers(cs[0], Point(p2.x, p1.z)) && Covers(cs[1], Point(p2.x, p1.z));
    }
  }

  /**
   Every inner node's corridor pieces appear, contiguously and in order, in
   the corridors of the whole tree: each pair of siblings is joined.
   */
  lemma SiblingsJoined(t: Node, width: int, depth: int, k: int)
    requires 0 <= k < |Branches(t)|
    ensures OccursAt(Joining(Branches(t)[k], width, depth), GenerateCorridors(t, width, depth), JoinAt(t, k, width, depth))
  {
    CorridorsFlatten(t, width, depth);
    OccursInConcat(JoinAll(Branches(t), width, depth), k);
    JoinAllAt(Branches(t), k, width, depth);
  }

  /** `generateCorridors` lays the pieces of the inner nodes one after another, in pre-order. */
  lemma {:induction false} CorridorsFlatten(t: Node, width: int, depth: int)
    ensures GenerateCorridors(t, width, depth) == Concat(JoinAll(Branches(t), width, depth))
  {
    match t
    case Leaf(_, _) =>
    case Branch(_, l, r) =>
      CorridorsFlatten(l, width, depth);
      CorridorsFlatten(r, width, depth);
      JoinAllBranch(t, width, depth);
      ConcatCons(Joining(t, width, depth), GenerateCorridors(l, width, depth), GenerateCorridors(r, width, depth),
                 JoinAll(Branches(l), width, depth), JoinAll(Branches(r), width, depth));
  }

  /** Laying `own` before two concatenations concatenates `[own]` before both. */
  lemma ConcatCons(own: seq<Area>, cl: seq<Area>, cr: seq<Area>, jl: seq<seq<Area>>, jr: seq<seq<Area>>)
    requires cl == Concat(jl) && cr == Concat(jr)
    ensures own + cl + cr == Concat([own] + (jl + jr))
  {
    ConcatAppend(jl, jr);
    ConcatAppend([own], jl + jr);
    assert Concat([own]) == own + Concat([]);
    assert own + cl + cr == own + (cl + cr);
  }

  /** The pieces of an inner node's subtree: its own, then its left subtree's, then its right's. */
  lemma JoinAllBranch(t: Node, width: int, depth: int)
    requires t.Branch?
    ensures JoinAll(Branches(t), width, depth)
         == [Joining(t, width, depth)] + (JoinAll(Branches(t.left), width, depth) + JoinAll(Branches(t.right), width, depth))
  {
    BranchesOf(t);
    JoinAllCons(t, Branches(t.left) + Branches(t.right), width, depth);
    JoinAllAppend(Branches(t.left), Branches(t.right), width, depth);
  }

  lemma BranchesOf(t: Node)
    requires t.Branch?
    ensures Branches(t) == [t] + (Branches(t.left) + Branches(t.right))
  {
  }

  lemma JoinAllCons(n: Node, bs: seq<Node>, width: int, depth: int)
    requires n.Branch? && forall k :: 0 <= k < |bs| ==> bs[k].Branch?
    ensures JoinAll([n] + bs, width, depth) == [Joining(n, width, depth)] + JoinAll(bs, width, depth)
  {
    assert ([n] + bs)[0] == n;
    assert ([n] + bs)[1..] == bs;
  }

  lemma {:induction false} JoinAllAppend(a: seq<Node>, b: seq<Node>, width: int, depth: int)
    requires forall k :: 0 <= k < |a| ==> a[k].Branch?
    requires forall k :: 0 <= k < |b| ==> b[k].Branch?
    ensures JoinAll(a + b, width, depth) == JoinAll(a, width, depth) + JoinAll(b, width, depth)
    decreases |a|
  {
    if |a| == 0 {
      assert a + b == b;
    } else {
      assert (a + b)[0] == a[0];
      assert (a + b)[1..] == a[1..] + b;
      JoinAllAppend(a[1..], b, width, depth);
    }
  }

  /** The `k`-th part of `JoinAll(bs)` is the pieces of `bs[k]`. */
  lemma {:induction false} JoinAllAt(bs: seq<Node>, k: int, width: int, depth: int)
    requires forall j :: 0 <= j < |bs| ==> bs[j].Branch?
    requires 0 <= k < |bs|
    ensures JoinAll(bs, width, depth)[k] == Joining(bs[k], width, depth)
    decreases k
  {
    if k > 0 {
      JoinAllAt(bs[1..], k - 1, width, depth);
    }
  }

  /** Every piece `generateCorridors` lays is a strip four units wide. */
  lemma {:induction false} CorridorsAreStrips(t: Node, width: int, depth: int)
    ensures forall k :: 0 <= k < |GenerateCorridors(t, width, depth)| ==> Strip(GenerateCorridors(t, width, depth)[k])
  {
    match t
    case Leaf(_, _) =>
    case Branch(_, l, r) =>
      CorridorsAreStrips(l, width, depth);
      CorridorsAreStrips(r, width, depth);
      var own := Joining(t, width, depth);
      var cl, cr := GenerateCorridors(l, width, depth), GenerateCorridors(r, width, depth);
      var all := GenerateCorridors(t, width, depth);
      assert all == own + cl + cr;
      forall k | 0 <= k < |all| ensures Strip(all[k]) {
        if k < |own| {
          assert k == 0 || k == |own| - 1;
        } else if k < |own| + |cl| {
          assert all[k] == cl[k - |own|];
        } else {
          assert all[k] == cr[k - |own| - |cl|];
        }
      }
  }

  lemma {:induction false} ConcatAppend(a: seq<seq<Area>>, b: seq<seq<Area>>)
    ensures Concat(a + b) == Concat(a) + Concat(b)
    decreases |a|
  {
    if |a| > 0 {
      assert (a + b)[1..] == a[1..] + b;
      ConcatAppend(a[1..], b);
    } else {
      assert a + b == b;
    }
  }

  /** The `k`-th part of a concatenation sits after the parts before it. */
  lemma OccursInConcat(ps: seq<seq<Area>>, k: int)
    requires 0 <= k < |ps|
    ensures OccursAt(ps[k], Concat(ps), |Concat(ps[..k])|)
  {
    var front, back := ps[..k], ps[k + 1..];
    assert ps == front + [ps[k]] + back;
    ConcatAppend(front + [ps[k]], back);
    ConcatAppend(front, [ps[k]]);
    assert Concat([ps[k]]) == ps[k] + Concat([]);
    var all := Concat(front) + ps[k] + Concat(back);
    assert all[|Concat(front)|..|Concat(front)| + |ps[k]|] == ps[k];
  }

  /**
   In a furnished, well-formed tree each corridor starts inside the left
   child's rectangle and ends inside the right child's.
   */
  lemma CorridorEnds(n: Node, width: int, depth: int)
    requires n.Branch? && WellFormed(n) && FurnishedTree(n)
    ensures var cs := Connect(Centre(n.left, width, depth), Centre(n.right, width, depth));
      && WithinMap(Centre(n.left, width, depth), n.left.bounds, width, depth)
      && WithinMap(Centre(n.right, width, depth), n.right.bounds, width, depth)
      && Covers(cs[0], Centre(n.left, width, depth))
      && Covers(cs[|cs| - 1], Centre(n.right, width, depth))
  {
    CentreInside(n.left, width, depth);
    CentreInside(n.right, width, depth);
  }
}

=== FILE: generator.dfy ===
/**
 `LevelGenerator` of src/LevelGenerator.js: the constructor and `generate`.

 `generate` splits the map, places the rooms, carves them (with their
 pillars) and the corridors into a solid grid, and reports every wall cell
 that borders an empty one. The generator keeps one random state across
 calls, so a second `generate` continues the sequence of the first.
 */
module Generator {
  import Rng
  import opened Bsp
  import opened Rooms
  import opened Corridors
  import opened Carving

  const DEFAULT_SEED: int := 12345

  /** The generator's fields after a `generate`: the walls, rooms and corridors of the last level. */
  datatype Generator = Generator(width: int, depth: int, rng: int, walls: seq<Cell>, rooms: seq<Room>, corridors: seq<Area>)

  /** What `generate` returns. Walls are grid cells; `WallBox` gives the unit block the source pushes. */
  datatype LevelData = LevelData(walls: seq<Cell>, rooms: seq<Room>)

  /** `new LevelGenerator(width, depth, seed)`, with the seed normalised as corrected in `Rng.InitialState`. */
  function NewGenerator(width: int, depth: int, seed: int): (g: Generator)
    ensures g.width == width && g.depth == depth
    ensures Rng.Live(g.rng)
    ensures Rng.NormaliseSeed(seed) != 0 ==> g.rng == Rng.NormaliseSeed(seed)
    ensures g.walls == [] && g.rooms == [] && g.corridors == []
  {
    Generator(width, depth, Rng.InitialState(seed), [], [], [])
  }

  /** `new LevelGenerator(width, depth)`: the default seed 12345 is already a live state and is kept as is. */
  function NewDefaultGenerator(width: int, depth: int): (g: Generator)
    ensures g.rng == DEFAULT_SEED && Rng.Live(g.rng)
    ensures g.width == width && g.depth == depth
    ensures g.walls == [] && g.rooms == [] && g.corridors == []
  {
    NewGenerator(width, depth, DEFAULT_SEED)
  }

  /** A cell of the map left empty: carved by a corridor, or inside a room and not one of its pillars. */
  ghost predicate Open(rooms: seq<Room>, corridors: seq<Area>, width: int, depth: int, x: int, z: int) {
    && InGrid(x, z, width, depth)
    && ((exists k :: 0 <= k < |corridors| && Carves(corridors[k], width, depth, x, z))
        || (exists k :: 0 <= k < |rooms| && InRoom(rooms[k], x, z) && !Pillar(rooms[k], x, z)))
  }

  /** A map cell that is not open but has an open neighbour. */
  ghost predicate Visible(rooms: seq<Room>, corridors: seq<Area>, width: int, depth: int, x: int, z: int) {
    && InGrid(x, z, width, depth)
    && !Open(rooms, corridors, width, depth, x, z)
    && (|| Open(rooms, corridors, width, depth, x + 1, z)
        || Open(rooms, corridors, width, depth, x - 1, z)
        || Open(rooms, corridors, width, depth, x, z + 1)
        || Open(rooms, corridors, width, depth, x, z - 1))
  }

  /** `generate`. */
  method Generate(gen: Generator) returns (level: LevelData, after: Generator)
    requires gen.width >= 1 && gen.depth >= 1 && Rng.Live(gen.rng)
    ensures after.width == gen.width && after.depth == gen.depth
    ensures after.walls == level.walls && after.rooms == level.rooms
    ensures var p := Partition(gen.width, gen.depth, gen.rng);
            var f := CreateRooms(p.tree, p.state);
            && level.rooms == f.rooms
            && after.corridors == GenerateCorridors(f.tree, gen.width, gen.depth)
            && p.state == Rng.Advance(gen.rng, p.draws)
            && after.rng == Rng.Advance(p.state, Draws(level.rooms))
    ensures Rng.Live(after.rng)
    ensures forall c :: c in level.walls <==> Visible(level.rooms, after.corridors, gen.width, gen.depth, c.x, c.z)
    ensures forall j, k :: 0 <= j < k < |level.walls| ==> Before(level.walls[j], level.walls[k])
  {
    var width, depth := gen.width, gen.depth;
    var p := Partition(width, depth, gen.rng);
    var f := CreateRooms(p.tree, p.state);
    var rooms := f.rooms;

    var corridors := GenerateCorridors(f.tree, width, depth);
    forall z, x
      ensures Unshared(rooms, x, z)
    {
      RoomsApart(width, depth, gen.rng, x, z);
    }
    var cells := LevelWalls(width, depth, rooms, corridors);
    level := LevelData(cells, rooms);
    after := Generator(width, depth, f.state, cells, rooms, corridors);
  }

  /**
   The wall phase of `generate`: carve the grid, then list its exposed wall
   cells. When no two rooms overlap, the list holds exactly the visible
   cells, in row-major order.
   */
  method LevelWalls(width: int, depth: int, rooms: seq<Room>, corridors: seq<Area>) returns (cells: seq<Cell>)
    requires width >= 0 && depth >= 0
    requires forall z, x :: Unshared(rooms, x, z)
    ensures forall c :: c in cells <==> Visible(rooms, corridors, width, depth, c.x, c.z)
    ensures forall j, k :: 0 <= j < k < |cells| ==> Before(cells[j], cells[k])
  {
    var g := CarveLevel(width, depth, rooms, corridors);
    cells := ExtractWalls(g, width, depth);
    forall c
      ensures c in cells <==> Visible(rooms, corridors, width, depth, c.x, c.z)
    {
      ExposedIsVisible(g, rooms, corridors, width, depth, c.x, c.z);
    }
  }

  /**
   The grid `generate` carves: a solid map, then every room with its
   pillars, then every corridor. When no two rooms overlap, a cell ends up
   empty exactly when it is open.
   */
  method CarveLevel(width: int, depth: int, rooms: seq<Room>, corridors: seq<Area>) returns (g: Grid)
    requires width >= 0 && depth >= 0
    requires forall z, x :: Unshared(rooms, x, z)
    ensures Shaped(g, width, depth)
    ensures forall z, x :: At(g, width, depth, x, z) == Empty <==> Open(rooms, corridors, width, depth, x, z)
  {
    g := Solid(width, depth);
    g := CarveRooms(g, width, depth, rooms);
    g := CarveCorridors(g, width, depth, rooms, corridors);
    forall z, x
      ensures At(g, width, depth, x, z) == Empty <==> Open(rooms, corridors, width, depth, x, z)
    {
      if InGrid(x, z, width, depth) {
        FinalTile(rooms, corridors, width, depth, x, z);
      }
    }
  }

  // ----------------------------------------------------------------------
  // Proofs

  /** On a grid whose empty cells are exactly the open ones, the exposed cells are exactly the visible ones. */
  lemma ExposedIsVisible(g: Grid, rooms: seq<Room>, corridors: seq<Area>, width: int, depth: int, x: int, z: int)
    requires Shaped(g, width, depth)
    requires forall z, x :: At(g, width, depth, x, z) == Empty <==> Open(rooms, corridors, width, depth, x, z)
    ensures InGrid(x, z, width, depth) && Exposed(g, width, depth, x, z) <==>
              Visible(rooms, corridors, width, depth, x, z)
  {
    assert At(g, width, depth, x, z) == Empty <==> Open(rooms, corridors, width, depth, x, z);
    assert At(g, width, depth, x + 1, z) == Empty <==> Open(rooms, corridors, width, depth, x + 1, z);
    assert At(g, width, depth, x - 1, z) == Empty <==> Open(rooms, corridors, width, depth, x - 1, z);
    assert At(g, width, depth, x, z + 1) == Empty <==> Open(rooms, corridors, width, depth, x, z + 1);
    assert At(g, width, depth, x, z - 1) == Empty <==> Open(rooms, corridors, width, depth, x, z - 1);
  }

  /** Along an axis of at least 4, a room `createRooms` placed stays inside its leaf. */
  lemma FurnishedSpan(lo: int, ext: int, rlo: int, rext: int)
    requires Centred(lo, ext, rlo, rext) && LowerExtent(MaxExtent(ext)) <= rext <= MaxExtent(ext)
    requires ext >= 4
    ensures lo <= rlo && rlo + rext <= lo + ext
  {
  }

  /**
   Two leaves of one partition whose rooms both cover coordinate `c` along
   an axis of root extent `root` share some coordinate `s` along that axis:
   either both leaves are at least 4 long there and hold their rooms, or the
   root is shorter than 4 and neither leaf was cut along that axis.
   */
  lemma SharedCoordinate(root: int, lo1: int, ext1: int, rlo1: int, rext1: int,
                         lo2: int, ext2: int, rlo2: int, rext2: int, c: int) returns (s: int)
    requires 0 <= lo1 && lo1 + ext1 <= root && (ext1 == root || ext1 >= MIN_ROOM_SIZE)
    requires 0 <= lo2 && lo2 + ext2 <= root && (ext2 == root || ext2 >= MIN_ROOM_SIZE)
    requires Centred(lo1, ext1, rlo1, rext1) && LowerExtent(MaxExtent(ext1)) <= rext1 <= MaxExtent(ext1)
    requires Centred(lo2, ext2, rlo2, rext2) && LowerExtent(MaxExtent(ext2)) <= rext2 <= MaxExtent(ext2)
    requires ext1 >= 1 && ext2 >= 1
    requires rlo1 <= c < rlo1 + rext1 && rlo2 <= c < rlo2 + rext2
    ensures lo1 <= s < lo1 + ext1 && lo2 <= s < lo2 + ext2
  {
    if ext1 >= 4 && ext2 >= 4 {
      FurnishedSpan(lo1, ext1, rlo1, rext1);
      FurnishedSpan(lo2, ext2, rlo2, rext2);
      s := c;
    } else {
      s := 0;
    }
  }

  /** No two rooms of a generated level share a cell. */
  lemma RoomsApart(width: int, depth: int, rng: int, x: int, z: int)
    requires width >= 1 && depth >= 1 && Rng.Live(rng)
    ensures Unshared(CreateRooms(Partition(width, depth, rng).tree, Partition(width, depth, rng).state).rooms, x, z)
  {
    var p := Partition(width, depth, rng);
    var f := CreateRooms(p.tree, p.state);
    RoomsMatchLeaves(f.tree);
    assert Leaves(f.tree) == Leaves(p.tree);
    forall j, k | 0 <= j < k < |f.rooms|
      ensures !(InRoom(f.rooms[j], x, z) && InRoom(f.rooms[k], x, z))
    {
      RoomPairApart(p.tree, j, k, f.rooms[j], f.rooms[k], x, z);
    }
  }

  /** The rooms `createRooms` places in two different leaves of one partition share no cell. */
  lemma RoomPairApart(t: Node, j: int, k: int, rj: Room, rk: Room, x: int, z: int)
    requires WellFormed(t) && t.bounds.x == 0 && t.bounds.z == 0 && 0 <= j < k < |Leaves(t)|
    requires Sized(Leaves(t)[j], t.bounds) && Sized(Leaves(t)[k], t.bounds)
    requires Furnishes(Leaves(t)[j], rj) && Furnishes(Leaves(t)[k], rk)
    ensures !(InRoom(rj, x, z) && InRoom(rk, x, z))
  {
    if InRoom(rj, x, z) && InRoom(rk, x, z) {
      var lj, lk := Leaves(t)[j], Leaves(t)[k];
      LeafWithin(t, j);
      LeafWithin(t, k);
      var sx := SharedCoordinate(t.bounds.width, lj.x, lj.width, rj.x, rj.width, lk.x, lk.width, rk.x, rk.width, x);
      var sz := SharedCoordinate(t.bounds.depth, lj.z, lj.depth, rj.z, rj.depth, lk.z, lk.depth, rk.z, rk.depth, z);
      LeavesDisjoint(t, j, k, sx, sz);
      assert false;
    }
  }

  /** What the split loop and `createRooms` leave for one leaf and its room. */
  lemma RoomFits(leaf: Rect, room: Room, width: int, depth: int)
    requires Furnishes(leaf, room) && Settled(leaf) && Sized(leaf, Rect(0, 0, width, depth)) && Proper(leaf)
    requires 0 <= leaf.x && leaf.x + leaf.width <= width && 0 <= leaf.z && leaf.z + leaf.depth <= depth
    ensures 2 <= room.width <= 33 && 2 <= room.depth <= 33
    ensures width >= 4 && depth >= 4 ==>
              0 <= room.x && room.x + room.width <= width && 0 <= room.z && room.z + room.depth <= depth
  {
    if width >= 4 && depth >= 4 {
      FurnishedSpan(leaf.x, leaf.width, room.x, room.width);
      FurnishedSpan(leaf.z, leaf.depth, room.z, room.depth);
    }
  }

  /**
   Rooms stay small: every leaf is below 37.5 along both axes, so a room is
   at most 33 long (and `Math.floor(m * 0.7)` is only ever taken of m <= 33);
   on maps of at least 4 by 4 every room lies inside the map.
   */
  lemma RoomsFit(width: int, depth: int, rng: int)
    requires width >= 1 && depth >= 1 && Rng.Live(rng)
    ensures var p := Partition(width, depth, rng);
            var rooms := CreateRooms(p.tree, p.state).rooms;
            forall k :: 0 <= k < |rooms| ==>
              && 2 <= rooms[k].width <= 33 && 2 <= rooms[k].depth <= 33
              && (width >= 4 && depth >= 4 ==>
                    0 <= rooms[k].x && rooms[k].x + rooms[k].width <= width
                    && 0 <= rooms[k].z && rooms[k].z + rooms[k].depth <= depth)
  {
    var p := Partition(width, depth, rng);
    var f := CreateRooms(p.tree, p.state);
    RoomsMatchLeaves(f.tree);
    assert Leaves(f.tree) == Leaves(p.tree);
    forall k | 0 <= k < |f.rooms|
      ensures 2 <= f.rooms[k].width <= 33 && 2 <= f.rooms[k].depth <= 33
      ensures width >= 4 && depth >= 4 ==>
                0 <= f.rooms[k].x && f.rooms[k].x + f.rooms[k].width <= width
                && 0 <= f.rooms[k].z && f.rooms[k].z + f.rooms[k].depth <= depth
    {
      LeafRoomFits(p.tree, k, f.rooms[k]);
    }
  }

  /** `RoomFits` for the room of the k-th leaf of a partition of the map. */
  lemma LeafRoomFits(t: Node, k: int, room: Room)
    requires WellFormed(t) && t.bounds.x == 0 && t.bounds.z == 0 && 0 <= k < |Leaves(t)|
    requires Settled(Leaves(t)[k]) && Sized(Leaves(t)[k], t.bounds) && Furnishes(Leaves(t)[k], room)
    ensures 2 <= room.width <= 33 && 2 <= room.depth <= 33
    ensures t.bounds.width >= 4 && t.bounds.depth >= 4 ==>
              0 <= room.x && room.x + room.width <= t.bounds.width
              && 0 <= room.z && room.z + room.depth <= t.bounds.depth
  {
    LeafWithin(t, k);
    RoomFits(Leaves(t)[k], room, t.bounds.width, t.bounds.depth);
  }
}

=== FILE: player.dfy ===
/**
 The player's health and movement keys (`Player` in src/Player.js).

 Health changes only through `takeDamage` and `heal`; the four movement
 flags change only through the keydown and keyup handlers. A sequence of
 such events is replayed by `Run`, so invariants of the player can be
 stated over every reachable state.
 */
module Player {
  import opened Wrappers

  const MAX_HEALTH: real := 100.0

  datatype Keys = Keys(forward: bool, backward: bool, left: bool, right: bool)

  datatype Player = Player(health: real, maxHealth: real, isDead: bool, keys: Keys)

  datatype Move = Forward | Backward | Left | Right

  /** The constructor's stats: full health, alive, no key held. */
  function NewPlayer(): (p: Player)
    ensures p.health == p.maxHealth == MAX_HEALTH && !p.isDead
    ensures !p.keys.forward && !p.keys.backward && !p.keys.left && !p.keys.right
  {
    Player(MAX_HEALTH, MAX_HEALTH, false, Keys(false, false, false, false))
  }

  /** `takeDamage`: nothing once dead; otherwise lose `amount`, dying at or below zero with health 0. */
  function TakeDamage(p: Player, amount: real): (q: Player)
    ensures p.isDead ==> q == p
    ensures !p.isDead && p.health - amount > 0.0 ==> q.health == p.health - amount && !q.isDead
    ensures !p.isDead && p.health - amount <= 0.0 ==> q.health == 0.0 && q.isDead
    ensures q.maxHealth == p.maxHealth && q.keys == p.keys
  {
    if p.isDead then p
    else
      var h := p.health - amount;
      if h <= 0.0 then p.(health := 0.0, isDead := true) else p.(health := h)
  }

  /** `heal`: nothing once dead; otherwise gain `amount`, never above `maxHealth`. */
  function Heal(p: Player, amount: real): (q: Player)
    ensures p.isDead ==> q == p
    ensures !p.isDead ==> (q.health == p.health + amount <==> p.health + amount <= p.maxHealth)
    ensures !p.isDead && p.health + amount > p.maxHealth ==> q.health == p.maxHealth
    ensures q.isDead == p.isDead && q.maxHealth == p.maxHealth && q.keys == p.keys
  {
    if p.isDead then p
    else
      var h := p.health + amount;
      if h > p.maxHealth then p.(health := p.maxHealth) else p.(health := h)
  }

  /** The `switch (event.code)` of both key handlers. */
  function MoveOf(code: string): (m: Option<Move>)
    ensures m == Some(Forward) <==> code == "ArrowUp" || code == "KeyW"
    ensures m == Some(Left) <==> code == "ArrowLeft" || code == "KeyA"
    ensures m == Some(Backward) <==> code == "ArrowDown" || code == "KeyS"
    ensures m == Some(Right) <==> code == "ArrowRight" || code == "KeyD"
  {
    if code == "ArrowUp" || code == "KeyW" then Some(Forward)
    else if code == "ArrowLeft" || code == "KeyA" then Some(Left)
    else if code == "ArrowDown" || code == "KeyS" then Some(Backward)
    else if code == "ArrowRight" || code == "KeyD" then Some(Right)
    else None
  }

  /** The flag a move controls. */
  function Held(k: Keys, m: Move): bool {
    match m
    case Forward => k.forward
    case Backward => k.backward
    case Left => k.left
    case Right => k.right
  }

  function SetFlag(k: Keys, m: Move, down: bool): (k': Keys)
    ensures Held(k', m) == down
    ensures forall n :: n != m ==> Held(k', n) == Held(k, n)
  {
    match m
    case Forward => k.(forward := down)
    case Backward => k.(backward := down)
    case Left => k.(left := down)
    case Right => k.(right := down)
  }

  /** `onKeyDown` (`down`) or `onKeyUp`: the code's flag becomes `down`; an unknown code changes nothing. */
  function Key(p: Player, code: string, down: bool): (q: Player)
    ensures MoveOf(code).None? ==> q == p
    ensures MoveOf(code).Some? ==> Held(q.keys, MoveOf(code).value) == down
    ensures forall m :: MoveOf(code) != Some(m) ==> Held(q.keys, m) == Held(p.keys, m)
    ensures q.health == p.health && q.maxHealth == p.maxHealth && q.isDead == p.isDead
  {
    match MoveOf(code)
    case None => p
    case Some(m) => p.(keys := SetFlag(p.keys, m, down))
  }

  function Sign(b: bool): int {
    if b then 1 else 0
  }

  /** `direction.z = Number(moveForward) - Number(moveBackward)`. */
  function DirectionZ(k: Keys): (d: int)
    ensures -1 <= d <= 1
    ensures d == 0 <==> k.forward == k.backward
    ensures d == 1 <==> k.forward && !k.backward
  {
    Sign(k.forward) - Sign(k.backward)
  }

  /** `direction.x = Number(moveRight) - Number(moveLeft)`. */
  function DirectionX(k: Keys): (d: int)
    ensures -1 <= d <= 1
    ensures d == 0 <==> k.right == k.left
    ensures d == 1 <==> k.right && !k.left
  {
    Sign(k.right) - Sign(k.left)
  }

  datatype Event =
    | Damage(amount: real)
    | Healing(amount: real)
    | KeyDown(code: string)
    | KeyUp(code: string)

  function Step(p: Player, e: Event): Player {
    match e
    case Damage(a) => TakeDamage(p, a)
    case Healing(a) => Heal(p, a)
    case KeyDown(c) => Key(p, c, true)
    case KeyUp(c) => Key(p, c, false)
  }

  function Run(p: Player, es: seq<Event>): Player
    decreases |es|
  {
    if |es| == 0 then p else Run(Step(p, es[0]), es[1..])
  }

  /** No event heals or damages by a negative amount. */
  predicate NonNegative(es: seq<Event>) {
    forall k :: 0 <= k < |es| ==>
      (es[k].Damage? ==> es[k].amount >= 0.0) && (es[k].Healing? ==> es[k].amount >= 0.0)
  }

  /** Health within [0, max], and dead exactly at health 0. */
  predicate Consistent(p: Player) {
    p.maxHealth == MAX_HEALTH && 0.0 <= p.health <= p.maxHealth && (p.isDead <==> p.health == 0.0)
  }

  // ----------------------------------------------------------------------
  // Proofs

  lemma StepConsistent(p: Player, e: Event)
    requires Consistent(p)
    requires (e.Damage? ==> e.amount >= 0.0) && (e.Healing? ==> e.amount >= 0.0)
    ensures Consistent(Step(p, e))
    ensures p.isDead ==> Step(p, e).isDead && Step(p, e).health == p.health
  {
  }

  /** Every state reached from a consistent one by non-negative events is consistent. */
  lemma {:induction false} RunConsistent(p: Player, es: seq<Event>)
    requires Consistent(p) && NonNegative(es)
    ensures Consistent(Run(p, es))
    decreases |es|
  {
    if |es| > 0 {
      StepConsistent(p, es[0]);
      assert NonNegative(es[1..]) by {
        forall k | 0 <= k < |es[1..]|
          ensures (es[1..][k].Damage? ==> es[1..][k].amount >= 0.0) && (es[1..][k].Healing? ==> es[1..][k].amount >= 0.0)
        {
          assert es[1..][k] == es[k + 1];
        }
      }
      RunConsistent(Step(p, es[0]), es[1..]);
    }
  }

  /** In particular, from a new player. */
  lemma NewPlayerConsistent(es: seq<Event>)
    requires NonNegative(es)
    ensures Consistent(Run(NewPlayer(), es))
  {
    RunConsistent(NewPlayer(), es);
  }

  /** Death is never undone and freezes health, whatever the events. */
  lemma {:induction false} DeathIsFinal(p: Player, es: seq<Event>)
    requires p.isDead
    ensures Run(p, es).isDead && Run(p, es).health == p.health
    decreases |es|
  {
    if |es| > 0 {
      DeathIsFinal(Step(p, es[0]), es[1..]);
    }
  }

  /** Releasing a key undoes pressing it: keyup after keydown is keyup alone. */
  lemma KeyUpAfterKeyDown(p: Player, code: string)
    ensures Key(Key(p, code, true), code, false) == Key(p, code, false)
  {
    match MoveOf(code)
    case None =>
    case Some(m) =>
      var a, b := Key(Key(p, code, true), code, false).keys, Key(p, code, false).keys;
      forall n ensures Held(a, n) == Held(b, n) {}
      assert a.forward == Held(a, Forward) && b.forward == Held(b, Forward);
      assert a.backward == Held(a, Backward) && b.backward == Held(b, Backward);
      assert a.left == Held(a, Left) && b.left == Held(b, Left);
      assert a.right == Held(a, Right) && b.right == Held(b, Right);
  }

  /** Key repeat: a second keydown of the same code changes nothing. */
  lemma KeyDownIdempotent(p: Player, code: string)
    ensures Key(Key(p, code, true), code, true) == Key(p, code, true)
  {
    match MoveOf(code)
    case None =>
    case Some(m) =>
      var a, b := Key(Key(p, code, true), code, true).keys, Key(p, code, true).keys;
      forall n ensures Held(a, n) == Held(b, n) {}
      assert a.forward == Held(a, Forward) && b.forward == Held(b, Forward);
      assert a.backward == Held(a, Backward) && b.backward == Held(b, Backward);
      assert a.left == Held(a, Left) && b.left == Held(b, Left);
      assert a.right == Held(a, Right) && b.right == Held(b, Right);
  }
}

=== FILE: rng.dfy ===
/**
 The seeded Park-Miller generator the level generator draws from
 (`SeededRandom` in src/LevelGenerator.js).

 The generator state is an integer. `next()` replaces the state by
 `state * 16807` reduced modulo 2^31 - 1 and returns `(state - 1) / (2^31 - 2)`;
 the model keeps that value as an exact `real`. `range(min, max)` floors
 `next() * (max - min + 1) + min`, which the model computes with integer
 division. Every draw is an explicit state-to-state step, so the number and
 order of draws made by a caller can be stated exactly with `Advance`.
 */
module Rng {

  const MODULUS: int := 2147483647
  const MULTIPLIER: int := 16807
  /** MULTIPLIER * INVERSE == 1 + INVERSE_QUOTIENT * MODULUS */
  const INVERSE: int := 1407677000
  const INVERSE_QUOTIENT: int := 11017

  /** A live state: the range the constructor means to establish and `next` keeps. */
  predicate Live(s: int) {
    1 <= s < MODULUS
  }

  /** JavaScript's `%`: the remainder takes the sign of the dividend. */
  function JsRem(a: int, m: int): (r: int)
    requires m > 0
    ensures -m < r < m
    ensures a >= 0 ==> 0 <= r
    ensures a <= 0 ==> r <= 0
    ensures a == m * JsQuot(a, m) + r
  {
    if a >= 0 then a % m else -((-a) % m)
  }

  /** JavaScript's integer quotient `Math.trunc(a / m)`: rounds toward zero. */
  function JsQuot(a: int, m: int): int
    requires m > 0
  {
    if a >= 0 then a / m else -((-a) / m)
  }

  /** The constructor's normalisation exactly as written: it can produce 0. */
  function NormaliseSeed(seed: int): (s: int)
    ensures 0 <= s < MODULUS
    ensures s == 0 <==> JsRem(seed, MODULUS) == -(MODULUS - 1)
    ensures s != 0 ==> Live(s)
  {
    var r := JsRem(seed, MODULUS);
    if r <= 0 then r + (MODULUS - 1) else r
  }

  /**
   The constructor's normalisation with the one degenerate remainder
   (-(2^31 - 2), which the written code sends to the fixed point 0) sent to
   2^31 - 2 instead, as a zero remainder is. Every other seed is treated as the
   written code treats it.
   */
  function InitialState(seed: int): (s: int)
    ensures Live(s)
    ensures NormaliseSeed(seed) != 0 ==> s == NormaliseSeed(seed)
  {
    var r := NormaliseSeed(seed);
    if r == 0 then MODULUS - 1 else r
  }

  /** The state after one `next()`. */
  function Next(s: int): (r: int)
    ensures 0 <= s ==> 0 <= r < MODULUS
    ensures Live(s) ==> Live(r)
    ensures s == 0 ==> r == 0
  {
    MultiplierKeepsLive(s);
    JsRem(s * MULTIPLIER, MODULUS)
  }

  /** The value `next()` returns once the state has become `s`. */
  function Unit(s: int): (u: real)
    ensures Live(s) ==> 0.0 <= u < 1.0
    ensures s == 0 ==> u < 0.0
  {
    (s - 1) as real / (MODULUS - 1) as real
  }

  /** The state after `n` draws. */
  function Advance(s: int, n: nat): int
    decreases n
  {
    if n == 0 then s else Advance(Next(s), n - 1)
  }

  /** A bounded draw: the integer `range(lo, hi)` returns and the state after it. */
  datatype Draw = Draw(value: int, state: int)

  function Range(s: int, lo: int, hi: int): (d: Draw)
    ensures d.state == Advance(s, 1)
    ensures d.value == (Unit(d.state) * (hi - lo + 1) as real + lo as real).Floor
    ensures Live(s) && lo <= hi ==> lo <= d.value <= hi
  {
    var t := Next(s);
    var v := ((t - 1) * (hi - lo + 1)) / (MODULUS - 1) + lo;
    FloorOfQuotient((t - 1) * (hi - lo + 1), MODULUS - 1, lo);
    RangeBounds(s, t - 1, hi - lo + 1);
    Draw(v, t)
  }

  /** `next() > 0.5`, the coin `Leaf.split` flips. */
  predicate CoinAboveHalf(s: int) {
    Unit(s) > 0.5
  }

  // ----------------------------------------------------------------------
  // Proofs

  lemma NotMultipleOfModulus(s: int, q: int)
    requires 0 < s < MODULUS
    ensures s != q * MODULUS
  {
    if q >= 1 {
      assert q * MODULUS >= 1 * MODULUS;
    } else {
      assert q * MODULUS <= 0;
    }
  }

  /** 2^31 - 1 is prime to 16807, so a live state never maps to 0. */
  lemma MultiplierKeepsLive(s: int)
    ensures Live(s) ==> 1 <= (s * MULTIPLIER) % MODULUS
  {
    if !Live(s) {
      return;
    }
    var k := (s * MULTIPLIER) / MODULUS;
    var r := (s * MULTIPLIER) % MODULUS;
    assert s * MULTIPLIER == k * MODULUS + r;
    assert MULTIPLIER * INVERSE == 1 + INVERSE_QUOTIENT * MODULUS;
    calc {
      r * INVERSE;
      (s * MULTIPLIER - k * MODULUS) * INVERSE;
      s * (MULTIPLIER * INVERSE) - k * MODULUS * INVERSE;
      s * (1 + INVERSE_QUOTIENT * MODULUS) - k * MODULUS * INVERSE;
      s + (s * INVERSE_QUOTIENT - k * INVERSE) * MODULUS;
    }
    if r == 0 {
      NotMultipleOfModulus(s, k * INVERSE - s * INVERSE_QUOTIENT);
      assert false;
    }
  }

  lemma FloorOfQuotient(a: int, b: int, lo: int)
    requires b > 0
    ensures a / b + lo == (a as real / b as real * 1.0 + lo as real).Floor
  {
    var q := a / b;
    assert q * b <= a < (q + 1) * b;
    assert q as real * b as real <= a as real;
    assert a as real < (q + 1) as real * b as real;
    assert q as real <= a as real / b as real < (q + 1) as real;
  }

  lemma RangeBounds(s: int, a: int, n: int)
    requires Live(s) ==> 0 <= a < MODULUS - 1
    ensures Live(s) && 1 <= n ==> 0 <= (a * n) / (MODULUS - 1) < n
  {
    if Live(s) && 1 <= n {
      var p := a * n;
      var q := p / (MODULUS - 1);
      assert 0 <= p by {
        assert 0 <= a;
      }
      assert p <= (MODULUS - 2) * n by {
        MulMonotone(a, MODULUS - 2, n);
      }
      assert q * (MODULUS - 1) <= p;
      if q >= n {
        MulMonotone(n, q, MODULUS - 1);
        assert false;
      }
    }
  }

  lemma MulMonotone(a: int, b: int, n: int)
    requires a <= b && 0 <= n
    ensures a * n <= b * n
  {
  }

  /** Live states stay live under any number of draws. */
  lemma {:induction false} AdvanceLive(s: int, n: nat)
    requires Live(s)
    ensures Live(Advance(s, n))
    decreases n
  {
    if n > 0 {
      AdvanceLive(Next(s), n - 1);
    }
  }

  /** Draws compose: `a` draws then `b` draws are `a + b` draws. */
  lemma {:induction false} AdvanceAdd(s: int, a: nat, b: nat)
    ensures Advance(Advance(s, a), b) == Advance(s, a + b)
    decreases a
  {
    if a > 0 {
      AdvanceAdd(Next(s), a - 1, b);
    }
  }

  /** Once the state is 0 it stays 0 for every number of draws. */
  lemma {:induction false} ZeroIsStuck(n: nat)
    ensures Advance(0, n) == 0
    decreases n
  {
    if n > 0 {
      ZeroIsStuck(n - 1);
    }
  }

  /**
   The seed -2147483646 normalises to the fixed point 0; from there every
   `next()` is negative and `range(15, 30)` returns 14, below its minimum.
   */
  lemma DegenerateSeed()
    ensures NormaliseSeed(-2147483646) == 0
    ensures Unit(Next(NormaliseSeed(-2147483646))) < 0.0
    ensures Range(NormaliseSeed(-2147483646), 15, 30).value == 14
  {
    var d := Range(0, 15, 30);
    assert Next(0) == 0;
  }

  /** The corrected initial state never yields an out-of-range draw. */
  lemma InitialStateRangeBounds(seed: int, n: nat, lo: int, hi: int)
    requires lo <= hi
    ensures lo <= Range(Advance(InitialState(seed), n), lo, hi).value <= hi
  {
    AdvanceLive(InitialState(seed), n);
  }
}

=== FILE: rooms.dfy ===
/**
 Room placement and centres: `Leaf.createRooms` and `Leaf.getCenter` of
 src/LevelGenerator.js.

 Rooms are kept in grid coordinates (top-left corner, integers). The source
 stores `x - generator.width / 2` instead; `Centre` and the carving code add
 that shift where the source works in centred map coordinates.
 */
module Rooms {
  import Rng
  import opened Bsp
  import opened Wrappers

  const PADDING: int := 2

  /** `Math.max(extent - padding * 2, 4)`. */
  function MaxExtent(e: int): int {
    if e - PADDING * 2 > 4 then e - PADDING * 2 else 4
  }

  /** `Math.floor(m * 0.7)`, taken as `(7 * m) / 10` (the two agree for 0 <= m < 90). */
  function LowerExtent(m: int): int {
    (7 * m) / 10
  }

  /** The span [rlo, rlo + rext) sits in the middle of [lo, lo + ext), any odd unit going after it. */
  predicate Centred(lo: int, ext: int, rlo: int, rext: int) {
    var before := rlo - lo;
    var after := (lo + ext) - (rlo + rext);
    0 <= after - before <= 1
  }

  /** What `createRooms` promises of the room it places in `leaf`. */
  predicate Furnishes(leaf: Rect, room: Room) {
    && LowerExtent(MaxExtent(leaf.width)) <= room.width <= MaxExtent(leaf.width)
    && LowerExtent(MaxExtent(leaf.depth)) <= room.depth <= MaxExtent(leaf.depth)
    && Centred(leaf.x, leaf.width, room.x, room.width)
    && Centred(leaf.z, leaf.depth, room.z, room.depth)
    && (room.hasPillars ==> room.width > 20 && room.depth > 20)
  }

  /** Draws a room costs: two sizes, and the pillar coin only for rooms over 20 in both extents. */
  function RoomDraws(room: Room): nat {
    if room.width > 20 && room.depth > 20 then 3 else 2
  }

  datatype Placed = Placed(room: Room, state: int)

  /** The leaf case of `createRooms`. */
  function CreateRoom(leaf: Rect, rng: int): (p: Placed)
    ensures p.state == Rng.Advance(rng, RoomDraws(p.room))
    ensures p.room.width == Rng.Range(rng, LowerExtent(MaxExtent(leaf.width)), MaxExtent(leaf.width)).value
    ensures p.room.depth == Rng.Range(Rng.Advance(rng, 1), LowerExtent(MaxExtent(leaf.depth)), MaxExtent(leaf.depth)).value
    ensures p.room.hasPillars ==> p.room.width > 20 && p.room.depth > 20
    ensures p.room.width > 20 && p.room.depth > 20 ==> (p.room.hasPillars <==> Rng.Unit(p.state) > 0.3)
    ensures Rng.Live(rng) ==> Rng.Live(p.state) && Furnishes(leaf, p.room)
    ensures Rng.Live(rng) && leaf.width >= 4 ==>
              leaf.x <= p.room.x && p.room.x + p.room.width <= leaf.x + leaf.width
    ensures Rng.Live(rng) && leaf.depth >= 4 ==>
              leaf.z <= p.room.z && p.room.z + p.room.depth <= leaf.z + leaf.depth
    ensures Rng.Live(rng) && leaf.width >= 8 ==>
              leaf.x + PADDING <= p.room.x && p.room.x + p.room.width <= leaf.x + leaf.width - PADDING
    ensures Rng.Live(rng) && leaf.depth >= 8 ==>
              leaf.z + PADDING <= p.room.z && p.room.z + p.room.depth <= leaf.z + leaf.depth - PADDING
  {
    var maxW := MaxExtent(leaf.width);
    var maxD := MaxExtent(leaf.depth);
    var w := Rng.Range(rng, LowerExtent(maxW), maxW);
    var d := Rng.Range(w.state, LowerExtent(maxD), maxD);
    TwoDraws(rng, w.state, d.state);
    var x := leaf.x + (leaf.width - w.value) / 2;
    var z := leaf.z + (leaf.depth - d.value) / 2;
    Placement(leaf.x, leaf.width, w.value);
    Placement(leaf.z, leaf.depth, d.value);
    if w.value > 20 && d.value > 20 then
      var last := Rng.Next(d.state);
      Rng.AdvanceAdd(rng, 2, 1);
      assert Rng.Advance(d.state, 1) == last;
      Placed(Room(x, z, w.value, d.value, Rng.Unit(last) > 0.3), last)
    else
      Placed(Room(x, z, w.value, d.value, false), d.state)
  }

  /** Rooms of the leaves, left before right: the order `createRooms` pushes them. */
  function RoomsOf(t: Node): seq<Room> {
    match t
    case Leaf(_, None) => []
    case Leaf(_, Some(room)) => [room]
    case Branch(_, l, r) => RoomsOf(l) + RoomsOf(r)
  }

  /** The tree with every room removed. */
  function Unfurnished(t: Node): Node {
    match t
    case Leaf(b, _) => Leaf(b, None)
    case Branch(b, l, r) => Branch(b, Unfurnished(l), Unfurnished(r))
  }

  /** Every leaf holds a room that `createRooms` could have placed there. */
  predicate FurnishedTree(t: Node) {
    match t
    case Leaf(b, room) => room.Some? && Furnishes(b, room.value)
    case Branch(_, l, r) => FurnishedTree(l) && FurnishedTree(r)
  }

  /** Every leaf holds a room. */
  predicate Occupied(t: Node) {
    match t
    case Leaf(_, room) => room.Some?
    case Branch(_, l, r) => Occupied(l) && Occupied(r)
  }

  function Draws(rooms: seq<Room>): nat {
    if |rooms| == 0 then 0 else RoomDraws(rooms[0]) + Draws(rooms[1..])
  }

  datatype Furnished = Furnished(tree: Node, rooms: seq<Room>, state: int)

  /** `createRooms`: a room in every leaf, none in an inner node, draws threaded left to right. */
  function CreateRooms(t: Node, rng: int): (f: Furnished)
    ensures Unfurnished(f.tree) == Unfurnished(t) && f.tree.bounds == t.bounds && Leaves(f.tree) == Leaves(t)
    ensures WellFormed(t) ==> WellFormed(f.tree)
    ensures Occupied(f.tree) && f.rooms == RoomsOf(f.tree)
    ensures |f.rooms| == |Leaves(t)|
    ensures f.state == Rng.Advance(rng, Draws(f.rooms))
    ensures Rng.Live(rng) ==> Rng.Live(f.state) && FurnishedTree(f.tree)
  {
    match t
    case Leaf(b, _) =>
      var p := CreateRoom(b, rng);
      assert Draws([p.room]) == RoomDraws(p.room);
      Furnished(Leaf(b, Some(p.room)), [p.room], p.state)
    case Branch(b, l, r) =>
      var fl := CreateRooms(l, rng);
      var fr := CreateRooms(r, fl.state);
      DrawsAppend(fl.rooms, fr.rooms);
      ThreadState(rng, fl.rooms, fr.rooms, fl.state, fr.state);
      Furnished(Branch(b, fl.tree, fr.tree), fl.rooms + fr.rooms, fr.state)
  }

  /** Placing rooms `a` and then rooms `b` advances the state by the draws of `a + b`. */
  lemma ThreadState(rng: int, a: seq<Room>, b: seq<Room>, mid: int, last: int)
    requires mid == Rng.Advance(rng, Draws(a)) && last == Rng.Advance(mid, Draws(b))
    ensures last == Rng.Advance(rng, Draws(a + b))
  {
    DrawsAppend(a, b);
    Rng.AdvanceAdd(rng, Draws(a), Draws(b));
  }

  datatype Point = Point(x: real, z: real)

  function Half(n: int): real {
    n as real / 2.0
  }

  /** `getCenter`, in centred map coordinates of a `width` by `depth` map. */
  function Centre(t: Node, width: int, depth: int): (c: Point)
    ensures WellFormed(t) && FurnishedTree(t) ==> WithinMap(c, t.bounds, width, depth)
  {
    match t
    case Leaf(_, Some(room)) =>
      Point(room.x as real - Half(width) + Half(room.width), room.z as real - Half(depth) + Half(room.depth))
    case Leaf(_, None) => Point(0.0, 0.0)
    case Branch(_, l, r) =>
      var lc := Centre(l, width, depth);
      var rc := Centre(r, width, depth);
      Point((lc.x + rc.x) / 2.0, (lc.z + rc.z) / 2.0)
  }

  /** `p` lies in the closed rectangle `r`, shifted to centred map coordinates. */
  predicate WithinMap(p: Point, r: Rect, width: int, depth: int) {
    && r.x as real - Half(width) <= p.x <= (r.x + r.width) as real - Half(width)
    && r.z as real - Half(depth) <= p.z <= (r.z + r.depth) as real - Half(depth)
  }

  // ----------------------------------------------------------------------
  // Proofs

  lemma {:induction false} DrawsAppend(a: seq<Room>, b: seq<Room>)
    ensures Draws(a + b) == Draws(a) + Draws(b)
    decreases |a|
  {
    if |a| > 0 {
      assert (a + b)[1..] == a[1..] + b;
      DrawsAppend(a[1..], b);
    } else {
      assert a + b == b;
    }
  }

  lemma TwoDraws(rng: int, first: int, second: int)
    requires first == Rng.Advance(rng, 1) && second == Rng.Advance(first, 1)
    ensures second == Rng.Advance(rng, 2)
    ensures Rng.Live(rng) ==> Rng.Live(first) && Rng.Live(second)
  {
    Rng.AdvanceAdd(rng, 1, 1);
    if Rng.Live(rng) {
      Rng.AdvanceLive(rng, 1);
      Rng.AdvanceLive(rng, 2);
    }
  }

  /** Where `createRooms` puts a span of `size` units in a leaf span [lo, lo + ext). */
  lemma Placement(lo: int, ext: int, size: int)
    ensures Centred(lo, ext, lo + (ext - size) / 2, size)
    ensures LowerExtent(MaxExtent(ext)) <= size <= MaxExtent(ext) && ext >= 4 ==>
              lo <= lo + (ext - size) / 2 && lo + (ext - size) / 2 + size <= lo + ext
    ensures LowerExtent(MaxExtent(ext)) <= size <= MaxExtent(ext) && ext >= 8 ==>
              lo + PADDING <= lo + (ext - size) / 2 && lo + (ext - size) / 2 + size <= lo + ext - PADDING
  {
  }

  /** Every room costs at least two draws. */
  lemma {:induction false} DrawsAtLeast(rooms: seq<Room>)
    ensures Draws(rooms) >= 2 * |rooms|
    decreases |rooms|
  {
    if |rooms| > 0 {
      DrawsAtLeast(rooms[1..]);
    }
  }

  /** In a furnished tree the k-th room furnishes the k-th leaf. */
  lemma {:induction false} RoomsMatchLeaves(t: Node)
    requires FurnishedTree(t)
    ensures |RoomsOf(t)| == |Leaves(t)|
    ensures forall k :: 0 <= k < |Leaves(t)| ==> Furnishes(Leaves(t)[k], RoomsOf(t)[k])
  {
    match t
    case Leaf(b, room) =>
    case Branch(b, l, r) =>
      RoomsMatchLeaves(l);
      RoomsMatchLeaves(r);
      var ls, rs := Leaves(l), Leaves(r);
      var lr, rr := RoomsOf(l), RoomsOf(r);
      forall k | 0 <= k < |Leaves(t)|
        ensures Furnishes(Leaves(t)[k], RoomsOf(t)[k])
      {
        if k < |ls| {
          assert Leaves(t)[k] == ls[k] && RoomsOf(t)[k] == lr[k];
        } else {
          assert Leaves(t)[k] == rs[k - |ls|] && RoomsOf(t)[k] == rr[k - |ls|];
        }
      }
  }

  /**
   Draw order: the k-th room is the one `createRoom` places in the k-th leaf
   with the state left by the rooms before it, so the left subtree's rooms
   consume the earlier draws.
   */
  lemma {:induction false} RoomsInDrawOrder(t: Node, rng: int, k: int)
    requires 0 <= k < |Leaves(t)|
    ensures var rooms := CreateRooms(t, rng).rooms;
            rooms[k] == CreateRoom(Leaves(t)[k], Rng.Advance(rng, Draws(rooms[..k]))).room
    decreases t, 1
  {
    match t
    case Leaf(b, _) =>
      var rooms := CreateRooms(t, rng).rooms;
      assert rooms == [CreateRoom(b, rng).room] && k == 0;
      assert Draws(rooms[..k]) == 0;
      assert Rng.Advance(rng, 0) == rng;
    case Branch(b, l, r) =>
      if k < |Leaves(l)| {
        LeftRoomInDrawOrder(t, rng, k);
      } else {
        RightRoomInDrawOrder(t, rng, k);
      }
  }

  /** The left subtree's rooms are drawn from the node's own starting state. */
  lemma {:induction false} LeftRoomInDrawOrder(t: Node, rng: int, k: int)
    requires t.Branch? && 0 <= k < |Leaves(t.left)|
    ensures var rooms := CreateRooms(t, rng).rooms;
            rooms[k] == CreateRoom(Leaves(t)[k], Rng.Advance(rng, Draws(rooms[..k]))).room
    decreases t, 0
  {
    var fl := CreateRooms(t.left, rng);
    var rooms := CreateRooms(t, rng).rooms;
    assert rooms == fl.rooms + CreateRooms(t.right, fl.state).rooms;
    RoomsInDrawOrder(t.left, rng, k);
    assert rooms[..k] == fl.rooms[..k];
    assert rooms[k] == fl.rooms[k] && Leaves(t)[k] == Leaves(t.left)[k];
  }

  /** The right subtree's rooms are drawn after all of the left subtree's. */
  lemma {:induction false} RightRoomInDrawOrder(t: Node, rng: int, k: int)
    requires t.Branch? && |Leaves(t.left)| <= k < |Leaves(t)|
    ensures var rooms := CreateRooms(t, rng).rooms;
            rooms[k] == CreateRoom(Leaves(t)[k], Rng.Advance(rng, Draws(rooms[..k]))).room
    decreases t, 0
  {
    var fl := CreateRooms(t.left, rng);
    var fr := CreateRooms(t.right, fl.state);
    var j := k - |Leaves(t.left)|;
    var rooms := CreateRooms(t, rng).rooms;
    PlacedAfter(rooms, fl.rooms, fr.rooms, rng, j, k);
    RoomsInDrawOrder(t.right, fl.state, j);
    var s1 := Rng.Advance(rng, Draws(rooms[..k]));
    var s2 := Rng.Advance(fl.state, Draws(fr.rooms[..j]));
    assert s1 == s2;
    assert Leaves(t)[k] == Leaves(t.right)[j];
    assert rooms[k] == CreateRoom(Leaves(t.right)[j], s2).room;
  }

  /**
   When `b`'s rooms follow `a`'s, the k-th room of `a + b` is the j-th of
   `b`, and the state before it is the state after `a` advanced by the rooms
   of `b` before it.
   */
  lemma PlacedAfter(rooms: seq<Room>, a: seq<Room>, b: seq<Room>, rng: int, j: int, k: int)
    requires rooms == a + b && k == |a| + j && 0 <= j < |b|
    ensures rooms[k] == b[j]
    ensures Rng.Advance(rng, Draws(rooms[..k])) == Rng.Advance(Rng.Advance(rng, Draws(a)), Draws(b[..j]))
  {
    assert rooms[..k] == a + b[..j];
    DrawsAppend(a, b[..j]);
    Rng.AdvanceAdd(rng, Draws(a), Draws(b[..j]));
  }

  /** A room's centre is at most half a unit before its leaf's centre, so it lies in the leaf. */
  lemma LeafCentreInside(b: Rect, room: Room, width: int, depth: int)
    requires Proper(b) && Furnishes(b, room)
    ensures WithinMap(Centre(Leaf(b, Some(room)), width, depth), b, width, depth)
  {
  }

  /** `getCenter` of a furnished subtree lies in that subtree's rectangle. */
  lemma {:induction false} CentreInside(t: Node, width: int, depth: int)
    requires WellFormed(t) && FurnishedTree(t)
    ensures WithinMap(Centre(t, width, depth), t.bounds, width, depth)
  {
    match t
    case Leaf(b, room) =>
      LeafCentreInside(b, room.value, width, depth);
    case Branch(b, l, r) =>
      CentreInside(l, width, depth);
      CentreInside(r, width, depth);
  }
}

=== FILE: weapon.dfy ===
/**
 The weapon's ammunition and fire gate (`Weapon` in src/Weapon.js).

 `shoot` fires only when the gate is open and ammunition is left; firing
 spends one round and closes the gate. The source reopens the gate with a
 `setTimeout` of `fireRate` seconds; here that is the `Cooldown` event,
 which may arrive at any point of a trace.
 */
module Weapon {

  const MAX_AMMO: int := 30

  datatype Weapon = Weapon(ammo: int, maxAmmo: int, canShoot: bool)

  /** The constructor: a full magazine and an open gate. */
  function NewWeapon(): (w: Weapon)
    ensures w.ammo == w.maxAmmo == MAX_AMMO && w.canShoot
  {
    Weapon(MAX_AMMO, MAX_AMMO, true)
  }

  /** The weapon after `shoot`, and whether it fired. */
  datatype Shot = Shot(weapon: Weapon, fired: bool)

  /** `shoot`: the guard, then one round spent and the gate closed. */
  function Shoot(w: Weapon): (s: Shot)
    ensures s.fired <==> w.canShoot && w.ammo > 0
    ensures !s.fired ==> s.weapon == w
    ensures s.fired ==> s.weapon == w.(ammo := w.ammo - 1, canShoot := false)
  {
    if !w.canShoot || w.ammo <= 0 then Shot(w, false)
    else Shot(w.(canShoot := false, ammo := w.ammo - 1), true)
  }

  /** The cooldown timer's callback: the gate reopens, nothing else changes. */
  function Cooldown(w: Weapon): (w': Weapon)
    ensures w'.canShoot && w'.ammo == w.ammo && w'.maxAmmo == w.maxAmmo
  {
    w.(canShoot := true)
  }

  /** `addAmmo`: add `amount`, capped at `maxAmmo`. */
  function AddAmmo(w: Weapon, amount: int): (w': Weapon)
    ensures w'.ammo == w.ammo + amount <==> w.ammo + amount <= w.maxAmmo
    ensures w.ammo + amount > w.maxAmmo ==> w'.ammo == w.maxAmmo
    ensures w'.maxAmmo == w.maxAmmo && w'.canShoot == w.canShoot
  {
    var a := w.ammo + amount;
    if a > w.maxAmmo then w.(ammo := w.maxAmmo) else w.(ammo := a)
  }

  datatype Event = Fire | CooldownElapsed | Pickup(amount: int)

  /** The weapon after a trace of events, and the number of shots fired. */
  datatype Outcome = Outcome(weapon: Weapon, shots: nat)

  function Run(w: Weapon, es: seq<Event>): (o: Outcome)
    decreases |es|
  {
    if |es| == 0 then Outcome(w, 0)
    else
      match es[0]
      case Fire =>
        var s := Shoot(w);
        var rest := Run(s.weapon, es[1..]);
        Outcome(rest.weapon, rest.shots + if s.fired then 1 else 0)
      case CooldownElapsed => Run(Cooldown(w), es[1..])
      case Pickup(a) => Run(AddAmmo(w, a), es[1..])
  }

  predicate InRange(w: Weapon) {
    w.maxAmmo == MAX_AMMO && 0 <= w.ammo <= w.maxAmmo
  }

  predicate NonNegative(es: seq<Event>) {
    forall k :: 0 <= k < |es| ==> (es[k].Pickup? ==> es[k].amount >= 0)
  }

  predicate NoCooldown(es: seq<Event>) {
    forall k :: 0 <= k < |es| ==> !es[k].CooldownElapsed?
  }

  predicate NoPickup(es: seq<Event>) {
    forall k :: 0 <= k < |es| ==> !es[k].Pickup?
  }

  // ----------------------------------------------------------------------
  // Proofs

  /** Without the cooldown, a second `shoot` does nothing. */
  lemma SecondShotBlocked(w: Weapon)
    requires Shoot(w).fired
    ensures Shoot(Shoot(w).weapon) == Shot(Shoot(w).weapon, false)
  {
  }

  /** Ammunition stays within [0, maxAmmo] under any trace whose pickups are non-negative. */
  lemma {:induction false} AmmoInRange(w: Weapon, es: seq<Event>)
    requires InRange(w) && NonNegative(es)
    ensures InRange(Run(w, es).weapon)
    decreases |es|
  {
    if |es| > 0 {
      assert NonNegative(es[1..]) by {
        forall k | 0 <= k < |es[1..]| ensures es[1..][k].Pickup? ==> es[1..][k].amount >= 0 {
          assert es[1..][k] == es[k + 1];
        }
      }
      match es[0]
      case Fire => AmmoInRange(Shoot(w).weapon, es[1..]);
      case CooldownElapsed => AmmoInRange(Cooldown(w), es[1..]);
      case Pickup(a) =>
        assert es[0].amount >= 0;
        AmmoInRange(AddAmmo(w, a), es[1..]);
    }
  }

  /** In particular, from a new weapon. */
  lemma NewWeaponInRange(es: seq<Event>)
    requires NonNegative(es)
    ensures InRange(Run(NewWeapon(), es).weapon)
  {
    AmmoInRange(NewWeapon(), es);
  }

  /** Between two cooldowns at most one shot is fired, and none once the gate is closed. */
  lemma {:induction false} OneShotPerCooldown(w: Weapon, es: seq<Event>)
    requires NoCooldown(es)
    ensures Run(w, es).shots <= 1
    ensures !w.canShoot ==> Run(w, es).shots == 0 && !Run(w, es).weapon.canShoot
    ensures Run(w, es).shots == 1 ==> !Run(w, es).weapon.canShoot
    decreases |es|
  {
    if |es| > 0 {
      assert NoCooldown(es[1..]) by {
        forall k | 0 <= k < |es[1..]| ensures !es[1..][k].CooldownElapsed? {
          assert es[1..][k] == es[k + 1];
        }
      }
      match es[0]
      case Fire => OneShotPerCooldown(Shoot(w).weapon, es[1..]);
      case Pickup(a) => OneShotPerCooldown(AddAmmo(w, a), es[1..]);
    }
  }

  /** Without pickups, ammunition drops by exactly the number of shots fired. */
  lemma {:induction false} ShotsSpendAmmo(w: Weapon, es: seq<Event>)
    requires NoPickup(es)
    ensures Run(w, es).weapon.ammo == w.ammo - Run(w, es).shots
    ensures Run(w, es).weapon.maxAmmo == w.maxAmmo
    decreases |es|
  {
    if |es| > 0 {
      assert NoPickup(es[1..]) by {
        forall k | 0 <= k < |es[1..]| ensures !es[1..][k].Pickup? {
          assert es[1..][k] == es[k + 1];
        }
      }
      match es[0]
      case Fire => ShotsSpendAmmo(Shoot(w).weapon, es[1..]);
      case CooldownElapsed => ShotsSpendAmmo(Cooldown(w), es[1..]);
    }
  }
}

=== FILE: wrappers.dfy ===
/** Shared helper types. */
module Wrappers {

  /** A value that may be absent: a leaf's room before `createRooms`, a key code with no move. */
  datatype Option<T> = None | Some(value: T)
}
